=== FILE: README.md ===
# Proportional token distribution, modelled in Dafny

Two command-line tools for Solana SPL tokens, modelled as pure functions.

- **Address fetcher.** It reads every token account of a mint from an RPC node. It removes the accounts of excluded holders and lets the operator narrow the list: everyone, positive balances (all, top N, bottom N, N random, four balance thresholds), or zero balances. It writes an owner file and a per-holder balance file.
- **Proportional distributor.** It reads such an `address,balance` file into an insertion-ordered ledger. It gives each address `balance * (total / sum of balances)`. Recipient by recipient, it runs the wallet's `spl-token transfer`, optionally asking the operator first. A transient error (`429 Too Many Requests`, `RPC response error -32005`) makes it run the command again. Every outcome goes into append-only success, canceled, failed, unconfirmed and detailed logs. Its `before` mode predicts each address's balance after the drop.

## How the model is built

- The external transfer process and the operator are inputs. A session is given the sequence of process results (exit code, stdout, stderr) and the sequence of operator answers up front. When either runs out, the session stops, as an interrupt would stop it.
- Logs are sequences of appended rows. Each of the four row logs (success, canceled, failed, unconfirmed) is a file whose header is followed by the concatenated rows. The detailed log has no header and is just its entries.
- Floating-point formatting and parsing are abstract parameters:
  - `fmt` renders an amount with a given number of decimals;
  - `show` is `str(float)`;
  - `parse` is `float(...)`, and returns `None` where Python raises `ValueError`.
- Balances and amounts are exact reals, so the allocation facts hold in exact arithmetic.
- `random.sample` is given the positions it picks.

Modules:

- `Results`, `Seqs`, `Text`: shared helpers. `Text` models Python's `str.strip` (with its Unicode whitespace), `str.split` and `sep.join` on decoded text.
- `Ledgers`, `AddressList`, `Allocation`, `TransferCommand`, `Signature`, `Classifier`, `LogFiles`, `Session`: the distributor.
- `Accounts`, `Filters`, `Fetcher`: the fetcher.
- `BalanceFile`: connects the two tools. The fetcher's balance file, read by the distributor's loader, gives back the fetcher's ledger.

### Behaviour worth noting

- **Marker order.** The rate-limit marker is checked before `-32005`. Both are always retried. No option turns the retry off, and there is no cap on the number of runs.
- **Signature parsing.** An output with no non-empty line makes `parse_sig` index off the front of its line list and raise. It does not record the placeholder. This is modelled as the session stopping with `NoSignatureLine`.
- **Zero sum of balances.** This is an unhandled division by zero, not a reported input error. It is modelled as the session stopping with `ZeroTotalBalance` before any transfer.
- **Factor.** The command-line help describes the proportional factor inverted ("sum of all balances divided by the total drop"). The code divides the drop by the sum (`proportional_factor = total_drop / sum(...)`), and so does the model.
- **Interactive unconfirmed outcome.** In interactive mode it leaves the loop before the detailed-log write, so that outcome has no detailed entry. In non-interactive mode it does have one.

## Model

| member | source | states |
|---|---|---|
| AddressList.ParseLine | tools/proportional-distributor/proportional-distributor.py:364-365 | A line is accepted exactly when it splits on `,` into two fields whose second, stripped, is a number; the pair is the stripped address and that number, and a rejection names the line and whether the field count was wrong |
| AddressList.LoadVerdict | tools/proportional-distributor/proportional-distributor.py:360-368 | The load succeeds if and only if every line is well formed; otherwise the error names the first bad line and the right reason |
| AddressList.LoadOrder | tools/proportional-distributor/proportional-distributor.py:360-368 | Addresses are processed in the order they first appear in the file, each once, a repeated address keeping its first position |
| AddressList.LoadLastWins | tools/proportional-distributor/proportional-distributor.py:365 | A repeated address ends with the balance from the last line that names it |
| Ledgers.Put | tools/proportional-distributor/proportional-distributor.py:365 | Ordered-dict assignment: the ledger stays valid, a new key goes last, an existing key keeps its place and takes the new value |
| Ledgers.TotalOrderIndependent | tools/proportional-distributor/proportional-distributor.py:398 | The sum of balances does not depend on insertion order |
| Ledgers.SumOverPermutation | tools/proportional-distributor/proportional-distributor.py:398 | Summing the same distinct keys in any order gives the same sum |
| Ledgers.SumOverNonNegative | tools/proportional-distributor/proportional-distributor.py:398 | With non-negative balances the sum is non-negative |
| Allocation.Allocate | tools/proportional-distributor/proportional-distributor.py:398-404 | One drop per ledger address, in ledger order; each amount stands to the total as that address's balance stands to the sum of balances |
| Allocation.AllocateSumsToTotal | tools/proportional-distributor/proportional-distributor.py:398-404 | The drops add up to exactly the total |
| Allocation.AllocateNonNegative | tools/proportional-distributor/proportional-distributor.py:398-404 | Non-negative balances and total give no negative drop |
| Allocation.AllocateOrderIndependent | tools/proportional-distributor/proportional-distributor.py:398-404 | Two ledgers with the same balances in different orders give every address the same drop |
| Allocation.SumScaled | tools/proportional-distributor/proportional-distributor.py:404 | Scaling every balance by the factor scales their sum by it |
| Allocation.Expect | tools/proportional-distributor/proportional-distributor.py:287-292 | Each snapshot row carries an address in ledger order, its balance, and that balance plus exactly the drop the distribution gives it |
| Allocation.Snapshot | tools/proportional-distributor/proportional-distributor.py:277-292 | The snapshot fails with the first bad line exactly when a line is malformed, and with a zero-sum error exactly when the balances sum to zero; otherwise it has one row per distinct address in first-appearance order, and the expected balances add up to the old sum plus the whole drop |
| Allocation.ExpectProportional | tools/proportional-distributor/proportional-distributor.py:287-292 | Each snapshot row's rise over its balance stands to the drop as the balance stands to the sum of balances |
| Allocation.ExpectSum | tools/proportional-distributor/proportional-distributor.py:287-292 | The expected balances add up to the old total plus the whole drop |
| TransferCommand.ToList | tools/proportional-distributor/proportional-distributor.py:139-145 | The argument vector is program, sub-command, mint, amount with `decimals` digits, recipient, `--url`, endpoint, then exactly the flags |
| TransferCommand.ToStrIsArgvWithoutUrl | tools/proportional-distributor/proportional-distributor.py:136-145 | When no word contains a space, the printed command splits back into the argument vector without `--url <endpoint>`, with a single empty last field when there are no flags |
| TransferCommand.JoinFlatten | tools/proportional-distributor/proportional-distributor.py:137 | Joining a list whose last element is a joined list is joining the flattened list |
| TransferCommand.AsWrittenMatchesCorrected | tools/proportional-distributor/proportional-distributor.py:125-145 | For every input, the as-written command renders the corrected argument vector when no flag list is passed, and fails to render whenever one is passed |
| TransferCommand.OptionsDroppedAsWritten | tools/proportional-distributor/proportional-distributor.py:133-145 | Passing `["--fund-recipient"]` makes the as-written command fail to render |
| TransferCommand.OptionsKept | tools/proportional-distributor/proportional-distributor.py:139-145 | The corrected command keeps `--url <endpoint>` at positions 5-6 and the given flags after it |
| Signature.LastNonEmpty | tools/proportional-distributor/proportional-distributor.py:112-116 | Finds the last non-empty line: none exactly when every line is empty, and every later line is empty |
| Signature.MatchSignature | tools/proportional-distributor/proportional-distributor.py:117-119 | A match exactly when the line starts with `Signature: ` and an alphanumeric; the result is the maximal alphanumeric run after the prefix |
| Signature.ParseSig | tools/proportional-distributor/proportional-distributor.py:109-121 | Fails exactly when the output holds nothing but line feeds. Otherwise it reads the last non-empty line: it returns that line's signature when the line matches, and the placeholder text exactly when it does not |
| Signature.ParseSigOfOtherLastLine | tools/proportional-distributor/proportional-distributor.py:112-121 | When the last non-empty line does not match, the placeholder is returned, whatever signature lines come before it |
| Signature.ParseSigOfConfirmation | tools/proportional-distributor/proportional-distributor.py:109-121 | An output ending with the line `Signature: <id>`, after any complete earlier lines, yields exactly `<id>` |
| Signature.LastLines | tools/proportional-distributor/proportional-distributor.py:112 | A final line ended by a line feed is the next-to-last piece of the split, with an empty last piece |
| Classifier.Classify | tools/proportional-distributor/proportional-distributor.py:413-446 | Exit code 0 delivers; otherwise the rate-limit marker, then `-32005`, means retry; otherwise the unconfirmed marker means unconfirmed; anything else is a rejection with the summarised error. Each case is stated as an if-and-only-if |
| Classifier.ErrorSummary | tools/proportional-distributor/proportional-distributor.py:444-446 | The failed-log error is the first line of the error stream with every comma made a space, ended by a line feed, and contains no comma |
| Classifier.ErrorSummaryFirstLine | tools/proportional-distributor/proportional-distributor.py:444-446 | Of a multi-line error only the first line is kept; a one-line error is kept whole |
| Classifier.RunUntilFinal | tools/proportional-distributor/proportional-distributor.py:413-452 | The run loop gives up only when every result is a retry. Otherwise the deciding run is the first final one, every earlier run was a retry, and each earlier error stream is recorded followed by a line feed |
| Classifier.RunCount | tools/proportional-distributor/proportional-distributor.py:413-452 | The command runs exactly once more than the number of leading transient results |
| Classifier.RunUntilFinalIgnoresRest | tools/proportional-distributor/proportional-distributor.py:413-452 | Results after the deciding run are never consumed |
| Session.PromptAnswer | tools/proportional-distributor/proportional-distributor.py:85-97 | An empty answer confirms, `ALL` switches, anything else cancels; never both confirm and switch |
| Session.Deliver | tools/proportional-distributor/proportional-distributor.py:413-457 | A delivery only appends to the logs: every earlier log is a prefix of the new one, exactly one recipient row is added, it starts with the recipient and amount, and no cancel is added. The recipient joins the trace of handled recipients and the new row joins the trace of rows written. A stop leaves the logs and both traces alone. Results are consumed from the front, one per run. The mode and answers are untouched |
| Session.DeliverLogged | tools/proportional-distributor/proportional-distributor.py:413-457 | The row is read off the run that decided the outcome, after the retried runs: exit 0 logs `<recipient>,<amount>,<signature>` and a detailed entry; the unconfirmed marker logs the raw error stream, with a detailed entry only when no prompt was shown; any other error logs the error summary and a detailed entry. The detailed entry is the command line, the retried error streams, then the deciding run's output and error stream. Exit 0 with no line to parse records nothing |
| Session.StepAt | tools/proportional-distributor/proportional-distributor.py:401-534 | One recipient appends exactly one row, starting with its recipient and amount, to logs that keep every earlier row, and the recipient and the row join the traces of handled recipients and rows written; or the session stops with logs and traces unchanged. The session only moves forward |
| Session.Drive | tools/proportional-distributor/proportional-distributor.py:401-534 | The session finishes exactly when every recipient is handled. The logs only grow, by one row per handled recipient, and the handled recipients are exactly the first drops' recipients, in order. The rows written, in the order they were written, are one per handled drop, the k-th starting with the k-th drop's recipient and amount, and as a multiset they are exactly the rows appended to the four row logs |
| Session.DriveAdvances | tools/proportional-distributor/proportional-distributor.py:401-534 | Results and answers are only consumed from the front. Every consumed result is one run and every consumed answer one prompt. Once non-interactive, the session never prompts again |
| Session.CancelRunsNothing | tools/proportional-distributor/proportional-distributor.py:522-530 | A cancel runs nothing, appends one canceled row and one `Cancel:` entry, and changes no other log |
| Session.ConfirmedOneRow | tools/proportional-distributor/proportional-distributor.py:475-521 | A confirmed recipient with a final outcome adds exactly one row to exactly one of the success, failed and unconfirmed logs, after 1 + leading-transients runs |
| Session.DeliverOneRow | tools/proportional-distributor/proportional-distributor.py:413-452 | A delivery that goes on adds exactly one row to exactly one of the success, failed and unconfirmed logs, after 1 + leading-transients runs |
| Session.SwitchIsOneWay | tools/proportional-distributor/proportional-distributor.py:468-473 | After `ALL` no later recipient consumes an answer or is prompted, and the session stays non-interactive |
| Session.DeliveredRow | tools/proportional-distributor/proportional-distributor.py:415-421 | A zero exit with a `Signature: <id>` last line logs a success row carrying `<id>` after one run |
| Session.RejectedRow | tools/proportional-distributor/proportional-distributor.py:442-457 | A rejected run logs the comma-free first error line and a detailed entry with the run's output |
| Session.UnconfirmedRow | tools/proportional-distributor/proportional-distributor.py:435-440 | An unconfirmed run logs the raw error; the detailed log is left alone exactly when the operator was prompted |
| Session.Transfer | tools/proportional-distributor/proportional-distributor.py:360-404 | A whole run stops on a bad input line (with that line's error) or a zero sum. Otherwise the recipients handled are a prefix of the file's addresses in first-appearance order, one row each, and a finished run handles all of them. The k-th row written starts with the k-th address followed by a comma, and the rows written are, as a multiset, exactly the rows in the four row logs. Every result consumed is one run |
| Session.Files | tools/proportional-distributor/proportional-distributor.py:384-391 | The corrected transcript: the first line of each row log is exactly its column names |
| Session.FilesAsWritten | tools/proportional-distributor/proportional-distributor.py:384-391 | The transcript as written differs from the corrected one only in the unconfirmed file, which lacks the header's line feed, so its first line is the column names run together with the first line of the first unconfirmed row |
| LogFiles.HeadersAreFirstLines | tools/proportional-distributor/proportional-distributor.py:384-391 | Each row log's header, ended by a line feed, is the first line whatever rows follow |
| LogFiles.UnconfirmedHeaderMergesAsWritten | tools/proportional-distributor/proportional-distributor.py:390-391 | With the header as written, the first unconfirmed row is glued onto the header line |
| Text.JoinSplit | tools/proportional-distributor/proportional-distributor.py:112 | Joining the pieces of a split gives back the text, with one piece more than there are separators |
| Text.SplitJoin | tools/proportional-distributor/proportional-distributor.py:137 | Splitting a join of separator-free pieces gives back the pieces |
| Text.StripTrailingNewline | tools/proportional-distributor/proportional-distributor.py:365 | The line feed `for line in f` leaves on a line does not reach the stripped field |
| Text.StripIdempotent | tools/proportional-distributor/proportional-distributor.py:365 | Stripping twice is stripping once |
| Accounts.TokenAddressBalances | tools/address-fetcher/address-fetcher.py:34-66 | With type `token`, whose addresses are the accounts' own distinct `pubkey`s, the balance file lists every account once, in list order, with its own amount, a missing amount written as zero |
| Filters.MissingAmountCountsAsZero | tools/address-fetcher/address-fetcher.py:55-59 | An account with no amount counts as holding zero: the zero-token filter keeps it and the positive filter drops it |
| Accounts.OwnerList | tools/address-fetcher/address-fetcher.py:29-30 | The owner list has no repeats and holds exactly the holders of the accounts |
| Accounts.OwnerListOrder | tools/address-fetcher/address-fetcher.py:29-30 | The owner list keeps first-appearance order |
| Seqs.DedupFirstOccurrenceOrder | tools/address-fetcher/address-fetcher.py:30 | Deduplication keeps elements in the order of their first occurrence |
| Accounts.Aggregate | tools/address-fetcher/address-fetcher.py:34-41 | Per-holder balances: holders in first-appearance order, each with the sum of the balances of its accounts |
| Accounts.AggregateOrder | tools/address-fetcher/address-fetcher.py:29-41 | The aggregated holders are exactly the owner list, in the same order |
| Accounts.AggregateTotal | tools/address-fetcher/address-fetcher.py:34-41 | The aggregated balances add up to the summed balance of every account |
| Accounts.TokenName | tools/address-fetcher/address-fetcher.py:18-21 | The folder's token part is the resolved name when it differs from the mint, otherwise the first five characters of the mint |
| Filters.Exclude | tools/address-fetcher/address-fetcher.py:101-104 | Keeps each account of a holder not on the list exactly as often as it occurs, and no other account |
| Filters.ExcludeAppend | tools/address-fetcher/address-fetcher.py:104 | Exclusion works piecewise, so the kept accounts keep their relative order |
| Filters.ExcludeSound | tools/address-fetcher/address-fetcher.py:104 | No kept account belongs to an excluded holder |
| Filters.Positive | tools/address-fetcher/address-fetcher.py:133 | Keeps exactly the accounts with a positive balance, each as often as it occurs |
| Filters.ApplyThreshold | tools/address-fetcher/address-fetcher.py:150-164 | Keeps exactly the accounts above x, at least x, between 0 and x, or in [y, x) |
| Filters.ZeroOnly | tools/address-fetcher/address-fetcher.py:194 | Keeps exactly the accounts with zero balance |
| Filters.SortByBalance | tools/address-fetcher/address-fetcher.py:138 | The sort by balance yields a permutation sorted in the requested direction |
| Filters.SortIsStable | tools/address-fetcher/address-fetcher.py:138 | The sort is stable: accounts with equal balances keep their relative order |
| Filters.InsertSorted | tools/address-fetcher/address-fetcher.py:138 | Inserting into a sorted list keeps it sorted |
| Filters.Trunc | tools/address-fetcher/address-fetcher.py:139 | `int(n)` truncates toward zero |
| Filters.PyTake | tools/address-fetcher/address-fetcher.py:139 | `s[:n]` takes a prefix: n elements, all of a shorter list, or for a negative n all but the last -n |
| Filters.Extremes | tools/address-fetcher/address-fetcher.py:136-143 | Top and bottom N take their accounts from the list, none more often than it occurs |
| Filters.ExtremesChooseExtremes | tools/address-fetcher/address-fetcher.py:136-143 | For N >= 0 the top (bottom) N are min(N, size) accounts taken from the list, none of those left out larger (smaller) |
| Filters.Sample | tools/address-fetcher/address-fetcher.py:144-149 | Sampling fails exactly for a negative or too large count; otherwise it yields that many accounts taken from the population |
| Filters.PickSubMultiset | tools/address-fetcher/address-fetcher.py:147 | Picking distinct positions takes each account at most as often as the population holds it |
| Fetcher.PositiveOption | tools/address-fetcher/address-fetcher.py:134-164 | An option applied to the positive accounts fails exactly for a random count that is negative or too large; otherwise its result is drawn from them |
| Fetcher.PositiveSubmenu | tools/address-fetcher/address-fetcher.py:121-166 | The positive submenu fails only on a bad random count; its result is sorted by non-increasing balance and drawn from the positive accounts |
| Fetcher.PositiveSubmenuSound | tools/address-fetcher/address-fetcher.py:121-166 | Everything the positive submenu yields is a fetched account with a positive balance |
| Fetcher.AllPositiveKeepsAll | tools/address-fetcher/address-fetcher.py:133-135 | "Get all users" yields exactly the positive accounts |
| Fetcher.ThresholdKeepsPassing | tools/address-fetcher/address-fetcher.py:150-165 | A threshold option yields exactly the positive accounts that pass it |
| Fetcher.TopNAreLargest | tools/address-fetcher/address-fetcher.py:136-139 | Top N yields min(N, positives) accounts and no positive account left out holds more than one chosen |
| Fetcher.BottomNAreSmallest | tools/address-fetcher/address-fetcher.py:140-143 | Bottom N yields min(N, positives) accounts and no positive account left out holds less than one chosen |
| Fetcher.AllSubmenu | tools/address-fetcher/address-fetcher.py:168-185 | The all-holders submenu is sorted by non-increasing balance and drawn from the list; "all" keeps every account |
| Fetcher.NoTokensSubmenu | tools/address-fetcher/address-fetcher.py:187-203 | The no-tokens submenu yields only zero-balance accounts; "all" yields exactly the zero-balance accounts in list order |
| Fetcher.Select | tools/address-fetcher/address-fetcher.py:114-119 | Whatever submenu is chosen, its result is drawn from the candidates |
| Fetcher.WriteFile | tools/address-fetcher/address-fetcher.py:15-52 | The balance file lists exactly the holders of the owner file, in the same order, each with the sum of its accounts |
| Fetcher.Fetch | tools/address-fetcher/address-fetcher.py:98-119 | A whole fetch fails only when its submenu does, and no excluded holder reaches the output |
| BalanceFile.ParseBalanceLine | tools/address-fetcher/address-fetcher.py:50-52 | The distributor's loader reads a written balance line back as its holder and balance |
| BalanceFile.BalanceFileRoundTrip | tools/address-fetcher/address-fetcher.py:50-52 | Writing a ledger's balance file and loading it with the distributor's loader gives the ledger back |
| BalanceFile.FetchThenLoad | tools/address-fetcher/address-fetcher.py:29-52 | The fetcher's balance file, loaded by the distributor, gives the owner list's holders in order and the total of every fetched account |

Helpers that only compute, and that the rows above rely on, have no row of their own:
- `Accounts.ExtractOwner` and `Accounts.ExtractBalance` (tools/address-fetcher/address-fetcher.py, lines 55-66);
- `Fetcher.Candidates` (tools/address-fetcher/address-fetcher.py, lines 101-104);
- `TransferCommand.NewTransferCmd`, `TransferCommand.NewTransferCmdAsWritten` and `TransferCommand.ToListAsWritten` (tools/proportional-distributor/proportional-distributor.py, lines 125-145);
- `Session.Entry` and `Session.Field`, the detailed-log line and the row prefix (tools/proportional-distributor/proportional-distributor.py, lines 411 and 420, 438, 452);
- `Session.AddRow`, `Session.Record`, `Session.Cancel`, `Session.DriveFirst`, `Session.Continue` and `Session.Distribute`, the pieces `Deliver`, `StepAt`, `Drive` and `Transfer` are built from (tools/proportional-distributor/proportional-distributor.py, lines 401-534);
- lemmas that are proof steps or worked instances of the rows above: `AddressList.LoadLast` (for `LoadOrder` and `LoadLastWins`), `Allocation.CrossMultiply`, `Classifier.RateLimitRetried` (the retry loop read on a first run, which `Classify` and `RunUntilFinal` state in general), `Signature.SignatureThenWarning` and `LogFiles.UnconfirmedHeaderExample` (concrete instances of `ParseSigOfOtherLastLine` and `UnconfirmedHeaderMergesAsWritten`), `LogFiles.FirstLineAfter`, and the `Session` lemmas `RecordLogged`, `FirstRunLogged`, `RejectedLogged`, `ConfirmedDelivers`, `DriveStep`, `DoneFront`, `Unmoved`, `FirstRunDecides`, `RowText`, `FieldsFront`, `NewRowsTrans` and `DrivenOverOrder`;
- predicates and functions that name what the contracts above state: `Session.AppendedTo`, `Session.Recorded`, `Session.Suffix`, `Session.Confirmed`, `Session.NewRows`, `Session.Answered`, `Session.Recipients`, `Session.FieldsLead`, `Session.Driven`, `Session.StepTaken` and `Session.Logged`;
- small sequence lemmas: `Session.AppendedTrans`, `Session.SuffixTrans` and `Session.AdvancesTrans`.

## Left out

- Running processes (`run`, `subprocess`), `solana address`, `get_assoc_addr`, `get_balance` and the `after` check are foreign calls. Process results are an input sequence instead.
- `time.sleep`, `signal` and `KeyboardInterrupt` are timing and interrupts. Running out of process results or answers stands for the interrupt.
- Log-file creation, timestamps, folder names, file appends and the fetcher's `fetched.json` dump are I/O. The logs are sequences of rows.
- Menus and prompts are UI: `display_menu`, `input_number`, `amount_prompt`, `continue_airdrop_prompt`, argparse, `bcolors` and the printed messages. The menu choice and the numbers entered are parameters.
- `get_accounts`, `get_token_name` and the endpoint choice are network calls. The fetched accounts and the resolved token name are parameters.
- `get_env` is environment lookup with a regular expression.
- Float formatting (`:.{d}f`, `:f`, `str`) and `float(...)` parsing are float behaviour. They are abstract function parameters, and amounts are exact reals.
- `random.sample`'s randomness is nondeterminism. The picked positions are a parameter.
- The `except` fallback of the failed-log summary (lines 447-448 and 511-512) is not modelled. The error stream was already decoded at lines 423 and 485, outside the `try`, so the branch cannot be reached.
- A file that cannot be decoded as UTF-8 and a missing exclusion or input file are I/O errors.
- Process output is taken as already decoded text. A `UnicodeDecodeError` from `out.decode('utf-8')` or `err.decode('utf-8')` (lines 418, 423 and 454-455) is not modelled.
- The owner file's `acc.strip()` (line 48) is left out: holder addresses are taken to carry no surrounding whitespace. `BalanceFile.FetchThenLoad` requires this.
- Accounts.ExtractOwner: the fetcher's unset address type (neither `owner` nor `token`, which returns `None`) is not modelled. The operator is always asked for one.
- BalanceFile.FetchThenLoad: requires that the rendering `show` of each aggregated balance reads back exactly (`float(str(x)) == x`). This holds for Python floats, and it is required only for the balances written.
- Allocation.AllocateSumsToTotal: holds in exact arithmetic; Python's float shares can be off by rounding.
- AddressList.Load: its own contract states only that an accepted file gives a valid ledger. The if-and-only-if with well-formedness is `AddressList.LoadVerdict`, and the order and last-balance facts are `AddressList.LoadOrder` and `AddressList.LoadLastWins`.

## Findings

| source | as written | input that shows it | evidently intended | confidence | as-written member | corrected member |
|---|---|---|---|---|---|---|
| tools/proportional-distributor/proportional-distributor.py:133-134 | `self.options` is assigned only when `options is None`, so a given flag list is never stored and `to_str`/`to_list` raise `AttributeError` | `TransferCmd("spl-token", "transfer", "M", 6, 1.0, "R", "U", ["--fund-recipient"]).to_list()` | a given flag list is stored and appended after `--url <endpoint>` | high, not executed | TransferCommand.OptionsDroppedAsWritten | TransferCommand.OptionsKept |
| tools/proportional-distributor/proportional-distributor.py:391 | the unconfirmed log's header is written without a line feed, so the first unconfirmed row continues the header line | one unconfirmed row `A,1,e` followed by a line feed: the file's first line reads `recipient,amount,errorA,1,e` | the header is `recipient,amount,error` followed by a line feed, as for the other three row logs | high, not executed | LogFiles.UnconfirmedHeaderMergesAsWritten | LogFiles.HeadersAreFirstLines |

=== FILE: accounts.dfy ===
/** The address fetcher's view of the token accounts the RPC node returns,
    and what its writer makes of them: the owner list, the per-owner
    balances and the output folder's token name. */
module Accounts {
  import opened Results
  import opened Seqs
  import opened Text
  import opened Ledgers
  import opened AddressList

  /** Which address names a holder: the owner account or the token account. */
  datatype AddressType = OwnerAddress | TokenAddress

  /** A parsed token account: its own address (`pubkey`), the owner in its
      parsed info, and the `uiAmountString` read as a number when present. */
  datatype Account = Account(pubkey: string, owner: string, uiAmount: Option<real>)

  /** The address that names the holder of `acc`. */
  function ExtractOwner(acc: Account, t: AddressType): (a: string)
    ensures t == OwnerAddress ==> a == acc.owner
    ensures t == TokenAddress ==> a == acc.pubkey
  {
    match t
    case OwnerAddress => acc.owner
    case TokenAddress => acc.pubkey
  }

  /** The balance of `acc`; a missing amount counts as zero. */
  function ExtractBalance(acc: Account): (b: real)
    ensures acc.uiAmount.None? ==> b == 0.0
    ensures acc.uiAmount.Some? ==> b == acc.uiAmount.value
  {
    acc.uiAmount.GetOr(0.0)
  }

  /** The holder address of every account, in list order, repeats kept. */
  function Holders(accs: seq<Account>, t: AddressType): (hs: seq<string>)
    ensures |hs| == |accs|
    ensures forall i :: 0 <= i < |accs| ==> hs[i] == ExtractOwner(accs[i], t)
  {
    seq(|accs|, i requires 0 <= i < |accs| => ExtractOwner(accs[i], t))
  }

  /** The owner list written to the address file: each holder once, in the
      order of first appearance. */
  function OwnerList(accs: seq<Account>, t: AddressType): (r: seq<string>)
    ensures Distinct(r)
    ensures forall a :: a in r <==> exists i :: 0 <= i < |accs| && ExtractOwner(accs[i], t) == a
  {
    var hs := Holders(accs, t);
    assert forall a :: a in hs <==> exists i :: 0 <= i < |accs| && ExtractOwner(accs[i], t) == a by {
      forall a | a in hs
        ensures exists i :: 0 <= i < |accs| && ExtractOwner(accs[i], t) == a
      {
        var i := IndexOf(hs, a);
        assert ExtractOwner(accs[i], t) == a;
      }
    }
    Dedup(hs)
  }

  /** The owner list keeps first-appearance order. */
  lemma OwnerListOrder(accs: seq<Account>, t: AddressType)
    ensures var r := OwnerList(accs, t);
      forall i, j :: 0 <= i < j < |r| ==> IndexOf(Holders(accs, t), r[i]) < IndexOf(Holders(accs, t), r[j])
  {
    DedupFirstOccurrenceOrder(Holders(accs, t));
  }

  /** The summed balance of the accounts held by `a`, the reference the
      aggregation is measured against. */
  function SumFor(accs: seq<Account>, t: AddressType, a: string): real {
    if |accs| == 0 then 0.0
    else
      var last := accs[|accs| - 1];
      SumFor(accs[..|accs| - 1], t, a) + (if ExtractOwner(last, t) == a then ExtractBalance(last) else 0.0)
  }

  /** `l` is the aggregation of `accs`: holders in first-appearance order,
      each with its summed balance. */
  predicate Aggregates(l: Ledger, accs: seq<Account>, t: AddressType) {
    && l.Valid()
    && l.order == Dedup(Holders(accs, t))
    && forall a :: a in l.balance ==> l.balance[a] == SumFor(accs, t, a)
  }

  /** One more account, folded in as the writer's loop body does. */
  function AddAccount(l: Ledger, acc: Account, t: AddressType): Ledger
    requires l.Valid()
  {
    var a := ExtractOwner(acc, t);
    var b := ExtractBalance(acc);
    Put(l, a, if a in l.balance then l.balance[a] + b else b)
  }

  lemma HoldersSnoc(init: seq<Account>, acc: Account, t: AddressType)
    ensures Holders(init + [acc], t) == Holders(init, t) + [ExtractOwner(acc, t)]
  {
    var accs := init + [acc];
    assert forall i :: 0 <= i < |init| ==> accs[i] == init[i];
  }

  lemma SumForSnoc(init: seq<Account>, acc: Account, t: AddressType, a: string)
    ensures SumFor(init + [acc], t, a)
         == SumFor(init, t, a) + (if ExtractOwner(acc, t) == a then ExtractBalance(acc) else 0.0)
  {
    assert (init + [acc])[..|init|] == init;
  }

  lemma AddAccountOrder(l: Ledger, init: seq<Account>, acc: Account, t: AddressType)
    requires Aggregates(l, init, t)
    ensures AddAccount(l, acc, t).order == Dedup(Holders(init + [acc], t))
  {
    var a := ExtractOwner(acc, t);
    HoldersSnoc(init, acc, t);
    DedupSnoc(Holders(init, t), a);
  }
  /** Someone who holds none of the accounts sums to zero. */
  lemma NotAHolder(accs: seq<Account>, t: AddressType, a: string)
    requires a !in Holders(accs, t)
    ensures SumFor(accs, t, a) == 0.0
  {
    forall i | 0 <= i < |accs|
      ensures ExtractOwner(accs[i], t) != a
    {
      assert Holders(accs, t)[i] == ExtractOwner(accs[i], t);
    }
    SumForAbsent(accs, t, a);
  }

  /** Folding in one account keeps each stored balance the holder's sum. */
  lemma AddAccountBalanceAt(l: Ledger, init: seq<Account>, acc: Account, t: AddressType, k: string)
    requires Aggregates(l, init, t)
    requires k in AddAccount(l, acc, t).balance
    ensures AddAccount(l, acc, t).balance[k] == SumFor(init + [acc], t, k)
  {
    SumForSnoc(init, acc, t, k);
    if k !in l.balance {
      NotAHolder(init, t, k);
    }
  }

  lemma AddAccountBalances(l: Ledger, init: seq<Account>, acc: Account, t: AddressType)
    requires Aggregates(l, init, t)
    ensures var r := AddAccount(l, acc, t); forall k :: k in r.balance ==> r.balance[k] == SumFor(init + [acc], t, k)
  {
    forall k | k in AddAccount(l, acc, t).balance
      ensures AddAccount(l, acc, t).balance[k] == SumFor(init + [acc], t, k)
    {
      AddAccountBalanceAt(l, init, acc, t, k);
    }
  }

  lemma AddAccountAggregates(l: Ledger, init: seq<Account>, acc: Account, t: AddressType)
    requires Aggregates(l, init, t)
    ensures Aggregates(AddAccount(l, acc, t), init + [acc], t)
  {
    AddAccountOrder(l, init, acc, t);
    AddAccountBalances(l, init, acc, t);
  }

  /** The per-holder balances written to the balance file: keys in order of
      first appearance, each holder's balance the sum over its accounts. */
  function Aggregate(accs: seq<Account>, t: AddressType): (l: Ledger)
    ensures Aggregates(l, accs, t)
    decreases |accs|
  {
    if |accs| == 0 then Empty
    else
      var n := |accs| - 1;
      var l := Aggregate(accs[..n], t);
      AddAccountAggregates(l, accs[..n], accs[n], t);
      assert accs[..n] + [accs[n]] == accs;
      AddAccount(l, accs[n], t)
  }

  /** The aggregated holders are the owner list. */
  lemma AggregateOrder(accs: seq<Account>, t: AddressType)
    ensures Aggregate(accs, t).order == OwnerList(accs, t)
  {
  }

  /** The last account is folded into the aggregation of the others. */
  lemma AggregateLast(accs: seq<Account>, t: AddressType)
    requires |accs| > 0
    ensures Aggregate(accs, t) == AddAccount(Aggregate(accs[..|accs| - 1], t), accs[|accs| - 1], t)
  {
  }

  /** A holder without accounts sums to zero. */
  lemma {:induction false} SumForAbsent(accs: seq<Account>, t: AddressType, a: string)
    requires forall i :: 0 <= i < |accs| ==> ExtractOwner(accs[i], t) != a
    ensures SumFor(accs, t, a) == 0.0
  {
    if |accs| > 0 {
      SumForAbsent(accs[..|accs| - 1], t, a);
    }
  }

  /** Folding in one account raises the ledger's total by its balance. */
  lemma AddAccountTotal(l: Ledger, acc: Account, t: AddressType)
    requires l.Valid()
    ensures Total(AddAccount(l, acc, t)) == Total(l) + ExtractBalance(acc)
  {
    var a := ExtractOwner(acc, t);
    var b := ExtractBalance(acc);
    var r := AddAccount(l, acc, t);
    if a in l.balance {
      var j := IndexOf(l.order, a);
      SumOverReplace(l.order, j, l.balance, l.balance[a] + b);
    } else {
      SumOverAppend(l.order, [a], r.balance);
      SumOverFresh(l.order, l.balance, a, b);
      assert SumOver([a], r.balance) == b;
    }
  }

  /** Aggregation moves balance between no holders: the aggregated
      balances add up to the summed balance of every account. */
  lemma {:induction false} AggregateTotal(accs: seq<Account>, t: AddressType)
    ensures Total(Aggregate(accs, t)) == SumBalances(accs)
    decreases |accs|
  {
    if |accs| > 0 {
      var n := |accs| - 1;
      var l := Aggregate(accs[..n], t);
      calc {
        Total(Aggregate(accs, t));
        { AggregateLast(accs, t); }
        Total(AddAccount(l, accs[n], t));
        { AddAccountTotal(l, accs[n], t); }
        Total(l) + ExtractBalance(accs[n]);
        { AggregateTotal(accs[..n], t); }
        SumBalances(accs[..n]) + ExtractBalance(accs[n]);
      }
    }
  }

  /** A holder named by one account only sums to that account's balance. */
  lemma {:induction false} SumForOnly(accs: seq<Account>, t: AddressType, i: nat)
    requires i < |accs|
    requires forall j :: 0 <= j < |accs| && j != i ==> ExtractOwner(accs[j], t) != ExtractOwner(accs[i], t)
    ensures SumFor(accs, t, ExtractOwner(accs[i], t)) == ExtractBalance(accs[i])
  {
    var n := |accs| - 1;
    var a := ExtractOwner(accs[i], t);
    if i == n {
      forall j | 0 <= j < n
        ensures ExtractOwner(accs[..n][j], t) != a
      {
        assert accs[..n][j] == accs[j];
      }
      SumForAbsent(accs[..n], t, a);
    } else {
      forall j | 0 <= j < n && j != i
        ensures ExtractOwner(accs[..n][j], t) != ExtractOwner(accs[..n][i], t)
      {
        assert accs[..n][j] == accs[j] && accs[..n][i] == accs[i];
      }
      SumForOnly(accs[..n], t, i);
      assert accs[..n][i] == accs[i];
    }
  }

  /** With token addresses, whose `pubkey`s are all different, the balance
      file lists every account once, with its own balance; a missing
      amount is written as zero. */
  lemma TokenAddressBalances(accs: seq<Account>)
    requires forall i, j :: 0 <= i < j < |accs| ==> accs[i].pubkey != accs[j].pubkey
    ensures var l := Aggregate(accs, TokenAddress);
      && |l.order| == |accs|
      && forall i :: 0 <= i < |accs| ==>
        && l.order[i] == accs[i].pubkey
        && l.balance[accs[i].pubkey] == if accs[i].uiAmount.Some? then accs[i].uiAmount.value else 0.0
  {
    var hs := Holders(accs, TokenAddress);
    assert Distinct(hs);
    DedupDistinct(hs);
    forall i | 0 <= i < |accs|
      ensures accs[i].pubkey in Aggregate(accs, TokenAddress).balance
      ensures Aggregate(accs, TokenAddress).balance[accs[i].pubkey] == ExtractBalance(accs[i])
    {
      TokenAccountBalance(accs, i);
    }
  }

  /** One account of `TokenAddressBalances`. */
  lemma TokenAccountBalance(accs: seq<Account>, i: nat)
    requires forall i, j :: 0 <= i < j < |accs| ==> accs[i].pubkey != accs[j].pubkey
    requires i < |accs|
    ensures accs[i].pubkey in Aggregate(accs, TokenAddress).balance
    ensures Aggregate(accs, TokenAddress).balance[accs[i].pubkey] == ExtractBalance(accs[i])
  {
    var l := Aggregate(accs, TokenAddress);
    var hs := Holders(accs, TokenAddress);
    assert hs[i] == accs[i].pubkey;
    assert accs[i].pubkey in l.order;
    forall j | 0 <= j < |accs| && j != i
      ensures ExtractOwner(accs[j], TokenAddress) != ExtractOwner(accs[i], TokenAddress)
    {
    }
    SumForOnly(accs, TokenAddress, i);
  }

  /** Sum of the balances of all accounts, left to right. */
  function SumBalances(accs: seq<Account>): real {
    if |accs| == 0 then 0.0 else SumBalances(accs[..|accs| - 1]) + ExtractBalance(accs[|accs| - 1])
  }

  /** Changing one key's value changes the sum by the difference. */
  lemma {:induction false} SumOverReplace(keys: seq<string>, j: nat, m: map<string, real>, v: real)
    requires j < |keys| && Distinct(keys)
    requires forall k :: k in keys ==> k in m
    ensures SumOver(keys, m[keys[j] := v]) == SumOver(keys, m) - m[keys[j]] + v
  {
    if j == 0 {
      assert keys[0] !in keys[1..];
      SumOverFresh(keys[1..], m, keys[0], v);
    } else {
      SumOverReplace(keys[1..], j - 1, m, v);
    }
  }

  /** Giving a key outside `keys` a value leaves their sum alone. */
  lemma {:induction false} SumOverFresh(keys: seq<string>, m: map<string, real>, a: string, v: real)
    requires forall k :: k in keys ==> k in m
    requires a !in keys
    ensures SumOver(keys, m[a := v]) == SumOver(keys, m)
  {
    if |keys| > 0 {
      SumOverFresh(keys[1..], m, a, v);
    }
  }

  /** The folder name's token part: the resolved token name when there is
      one, otherwise the first five characters of the mint. */
  function TokenName(token: string, mint: string): (r: string)
    ensures token != mint ==> r == token
    ensures token == mint ==> |r| <= 5 && |r| <= |mint| && r == mint[..|r|] && (|r| == 5 || r == mint)
  {
    if token != mint then token
    else if |mint| <= 5 then mint
    else mint[..5]
  }
}

=== FILE: address_list.dfy ===
/** Loading the distributor's input file: one `address,balance` pair per
    line, read into an insertion-ordered ledger. */
module AddressList {
  import opened Results
  import opened Seqs
  import opened Text
  import opened Ledgers

  /** Why the load stopped, with the zero-based index of the offending line:
      it did not split into exactly two fields, or its balance is not a number. */
  datatype LoadError = FieldCount(line: nat) | NotANumber(line: nat)

  /** A line the loader accepts: exactly one comma, and a balance `parse`
      reads (`float(balance.strip())`). */
  predicate WellFormed(line: string, parse: string -> Option<real>) {
    var f := Split(line, ',');
    |f| == 2 && parse(Strip(f[1])).Some?
  }

  /** The address a line contributes: its stripped first field. */
  function Key(line: string): string {
    Strip(Split(line, ',')[0])
  }

  /** The balance a well-formed line contributes. */
  function Value(line: string, parse: string -> Option<real>): real
    requires WellFormed(line, parse)
  {
    parse(Strip(Split(line, ',')[1])).value
  }

  /** The addresses of all lines, in file order, repeats included. */
  function Keys(lines: seq<string>): seq<string> {
    seq(|lines|, i requires 0 <= i < |lines| => Key(lines[i]))
  }

  /** One line as the loop body reads it: `address, balance = line.split(',')`
      then `float(balance.strip())`. */
  function ParseLine(line: string, index: nat, parse: string -> Option<real>): (r: Result<(string, real), LoadError>)
    ensures r.Ok? <==> WellFormed(line, parse)
    ensures r.Ok? ==> r.value == (Key(line), Value(line, parse))
    ensures r.Err? ==> r.error.line == index && (r.error.FieldCount? <==> |Split(line, ',')| != 2)
  {
    var f := Split(line, ',');
    if |f| != 2 then Err(FieldCount(index))
    else
      match parse(Strip(f[1]))
      case None => Err(NotANumber(index))
      case Some(v) => Ok((Strip(f[0]), v))
  }

  /** Every line of the file is one the loader accepts. */
  predicate AllWellFormed(lines: seq<string>, parse: string -> Option<real>) {
    forall i :: 0 <= i < |lines| ==> WellFormed(lines[i], parse)
  }

  /** The file read line by line into an ordered dict; the first bad line
      aborts the whole load. */
  function Load(lines: seq<string>, parse: string -> Option<real>): (r: Result<Ledger, LoadError>)
    ensures r.Ok? ==> r.value.Valid()
    decreases |lines|
  {
    if |lines| == 0 then Ok(Empty)
    else
      var n := |lines| - 1;
      match Load(lines[..n], parse)
      case Err(e) => Err(e)
      case Ok(l) =>
        match ParseLine(lines[n], n, parse)
        case Err(e) => Err(e)
        case Ok(kv) => Ok(Put(l, kv.0, kv.1))
  }

  /** `e` names the first line the loader rejects, with the right reason. */
  predicate FirstBadLine(lines: seq<string>, parse: string -> Option<real>, e: LoadError) {
    && e.line < |lines|
    && !WellFormed(lines[e.line], parse)
    && (e.FieldCount? <==> |Split(lines[e.line], ',')| != 2)
    && AllWellFormed(lines[..e.line], parse)
  }

  /** A file is accepted when its earlier lines are and so is its last. */
  lemma AllWellFormedSnoc(lines: seq<string>, parse: string -> Option<real>)
    requires |lines| > 0
    ensures AllWellFormed(lines, parse)
        <==> AllWellFormed(lines[..|lines| - 1], parse) && WellFormed(lines[|lines| - 1], parse)
  {
    var n := |lines| - 1;
    assert forall i :: 0 <= i < n ==> lines[..n][i] == lines[i];
  }

  /** The first bad line of a prefix is the first bad line of the file. */
  lemma FirstBadLineExtends(lines: seq<string>, parse: string -> Option<real>, e: LoadError)
    requires |lines| > 0 && FirstBadLine(lines[..|lines| - 1], parse, e)
    ensures FirstBadLine(lines, parse, e)
  {
    var n := |lines| - 1;
    assert lines[..n][e.line] == lines[e.line];
    assert lines[..n][..e.line] == lines[..e.line];
  }

  /** The load succeeds exactly when every line is well formed, and
      otherwise reports the first bad line and why it is bad. */
  lemma {:induction false} LoadVerdict(lines: seq<string>, parse: string -> Option<real>)
    ensures Load(lines, parse).Ok? <==> AllWellFormed(lines, parse)
    ensures Load(lines, parse).Err? ==> FirstBadLine(lines, parse, Load(lines, parse).error)
    decreases |lines|
  {
    if |lines| > 0 {
      var n := |lines| - 1;
      LoadVerdict(lines[..n], parse);
      AllWellFormedSnoc(lines, parse);
      if Load(lines[..n], parse).Err? {
        FirstBadLineExtends(lines, parse, Load(lines[..n], parse).error);
      }
    }
  }

  /** The keys of a file are the keys of its earlier lines, then the key
      of its last line. */
  lemma KeysSnoc(lines: seq<string>)
    requires |lines| > 0
    ensures Keys(lines) == Keys(lines[..|lines| - 1]) + [Key(lines[|lines| - 1])]
  {
    var n := |lines| - 1;
    var a, b := Keys(lines), Keys(lines[..n]) + [Key(lines[n])];
    assert |a| == |b|;
    forall i | 0 <= i < |a|
      ensures a[i] == b[i]
    {
      if i < n {
        assert lines[..n][i] == lines[i];
      }
    }
  }

  /** Addresses are processed in the order they first appear in the file;
      a repeated address keeps its first position. */
  lemma {:induction false} LoadOrder(lines: seq<string>, parse: string -> Option<real>)
    requires AllWellFormed(lines, parse)
    ensures Load(lines, parse).Ok?
    ensures Load(lines, parse).value.order == Dedup(Keys(lines))
  {
    LoadVerdict(lines, parse);
    if |lines| > 0 {
      AllWellFormedSnoc(lines, parse);
      var n := |lines| - 1;
      var pre := lines[..n];
      LoadLast(lines, parse);
      LoadOrder(pre, parse);
      KeysSnoc(lines);
      var l := Load(pre, parse).value;
      var k := Key(lines[n]);
      DedupSnoc(Keys(pre), k);
      assert k in l.balance <==> k in Dedup(Keys(pre));
    }
  }

  /** Loading one more accepted line stores its pair over the earlier load. */
  lemma LoadSnoc(pre: seq<string>, line: string, parse: string -> Option<real>)
    requires Load(pre, parse).Ok? && ParseLine(line, |pre|, parse).Ok?
    ensures Load(pre + [line], parse)
         == Ok(Put(Load(pre, parse).value, ParseLine(line, |pre|, parse).value.0, ParseLine(line, |pre|, parse).value.1))
  {
    assert (pre + [line])[..|pre|] == pre;
  }

  /** No later line names the same address as line `i`. */
  predicate LastWithKey(lines: seq<string>, i: nat)
    requires i < |lines|
  {
    forall j :: i < j < |lines| ==> Key(lines[j]) != Key(lines[i])
  }

  /** A file the loader accepts has its earlier lines accepted, its last
      line well formed, and the last line's pair stored over what the
      earlier lines built. */
  lemma LoadLast(lines: seq<string>, parse: string -> Option<real>)
    requires |lines| > 0 && Load(lines, parse).Ok?
    ensures Load(lines[..|lines| - 1], parse).Ok?
    ensures WellFormed(lines[|lines| - 1], parse)
    ensures Load(lines, parse).value
      == Put(Load(lines[..|lines| - 1], parse).value, Key(lines[|lines| - 1]), Value(lines[|lines| - 1], parse))
  {
  }

  /** A repeated address takes the balance of its last line: the balance
      an address ends with is the one on the last line that names it. */
  lemma {:induction false} LoadLastWins(lines: seq<string>, parse: string -> Option<real>, i: nat)
    requires AllWellFormed(lines, parse)
    requires i < |lines| && LastWithKey(lines, i)
    ensures Load(lines, parse).Ok?
    ensures Key(lines[i]) in Load(lines, parse).value.balance
    ensures Load(lines, parse).value.balance[Key(lines[i])] == Value(lines[i], parse)
  {
    LoadVerdict(lines, parse);
    var n := |lines| - 1;
    AllWellFormedSnoc(lines, parse);
    LoadLast(lines, parse);
    if i < n {
      LastWithKeyPrefix(lines, i);
      LoadLastWins(lines[..n], parse, i);
    }
  }

  /** The last line naming an address, if not the file's last line, is
      also the last one naming it among the earlier lines. */
  lemma LastWithKeyPrefix(lines: seq<string>, i: nat)
    requires i < |lines| - 1 && LastWithKey(lines, i)
    ensures var n := |lines| - 1;
      && Key(lines[n]) != Key(lines[i])
      && lines[..n][i] == lines[i]
      && LastWithKey(lines[..n], i)
  {
    var pre := lines[..|lines| - 1];
    forall j | i < j < |pre|
      ensures Key(pre[j]) != Key(pre[i])
    {
      assert pre[j] == lines[j] && pre[i] == lines[i];
    }
  }
}

=== FILE: allocation.dfy ===
/** Proportional allocation: every recipient receives the total drop
    scaled by its share of the summed balances, and the balance-snapshot
    checker predicts each recipient's balance after the drop. */
module Allocation {
  import opened Results
  import opened Seqs
  import opened Ledgers
  import opened AddressList

  /** One recipient's part of the distribution. */
  datatype Drop = Drop(recipient: string, amount: real)

  /** The proportional factor: the total drop divided by the sum of all
      balances. Python raises on a zero sum; callers must rule it out. */
  function Factor(total: real, sum: real): real
    requires sum != 0.0
  {
    total / sum
  }

  /** A balance scaled by the factor: one recipient's amount. */
  function Share(balance: real, factor: real): real {
    balance * factor
  }

  /** `amount` stands to `total` as `balance` stands to `sum`. */
  predicate Proportional(amount: real, balance: real, total: real, sum: real) {
    amount * sum == balance * total
  }

  /** Scaling by the factor and multiplying back by the sum gives the
      balance times the total. */
  lemma CrossMultiply(b: real, total: real, sum: real)
    requires sum != 0.0
    ensures Proportional(Share(b, Factor(total, sum)), b, total, sum)
  {
    var f := Factor(total, sum);
    assert f * sum == total;
    assert b * f * sum == b * (f * sum);
  }

  /** Each of `keys` with its balance scaled by `factor`, in order. */
  function Scaled(keys: seq<string>, m: map<string, real>, factor: real): (drops: seq<Drop>)
    requires forall k :: k in keys ==> k in m
    ensures |drops| == |keys|
    ensures forall i :: 0 <= i < |keys| ==> drops[i] == Drop(keys[i], Share(m[keys[i]], factor))
  {
    if |keys| == 0 then [] else [Drop(keys[0], Share(m[keys[0]], factor))] + Scaled(keys[1..], m, factor)
  }

  /** Sum of the amounts of a list of drops. */
  function SumDrops(drops: seq<Drop>): real {
    if |drops| == 0 then 0.0 else drops[0].amount + SumDrops(drops[1..])
  }

  /** Every scaled amount times the sum is the balance times the total. */
  lemma ScaledProportional(keys: seq<string>, m: map<string, real>, total: real, sum: real)
    requires sum != 0.0
    requires forall k :: k in keys ==> k in m
    ensures forall i :: 0 <= i < |keys| ==> Proportional(Scaled(keys, m, Factor(total, sum))[i].amount, m[keys[i]], total, sum)
  {
    var drops := Scaled(keys, m, Factor(total, sum));
    forall i | 0 <= i < |keys|
      ensures Proportional(drops[i].amount, m[keys[i]], total, sum)
    {
      CrossMultiply(m[keys[i]], total, sum);
    }
  }

  /** The drops of one run, in ledger order: each recipient's amount stands
      to the total as its balance stands to the sum of balances. */
  function Allocate(l: Ledger, total: real): (drops: seq<Drop>)
    requires l.Valid() && Total(l) != 0.0
    ensures |drops| == |l.order|
    ensures forall i :: 0 <= i < |drops| ==> drops[i].recipient == l.order[i]
    ensures forall i :: 0 <= i < |drops| ==> Proportional(drops[i].amount, l.balance[l.order[i]], total, Total(l))
  {
    var sum := Total(l);
    ScaledProportional(l.order, l.balance, total, sum);
    Scaled(l.order, l.balance, Factor(total, sum))
  }

  /** A non-negative balance scaled by a non-negative total over a positive
      sum is non-negative. */
  lemma SignsOf(b: real, total: real, sum: real)
    requires b >= 0.0 && total >= 0.0 && sum > 0.0
    ensures Share(b, Factor(total, sum)) >= 0.0
  {
  }

  /** Scaling a sum scales both summands. */
  lemma Distribute(a: real, factor: real, s: real)
    ensures Share(a, factor) + Share(s, factor) == Share(a + s, factor)
  {
  }

  /** The whole sum scaled by the factor is the total. */
  lemma ShareOfSum(total: real, sum: real)
    requires sum != 0.0
    ensures Share(sum, Factor(total, sum)) == total
  {
  }

  lemma {:induction false} SumScaled(keys: seq<string>, m: map<string, real>, factor: real)
    requires forall k :: k in keys ==> k in m
    ensures SumDrops(Scaled(keys, m, factor)) == Share(SumOver(keys, m), factor)
  {
    if |keys| == 0 {
      assert Scaled(keys, m, factor) == [];
    } else {
      var rest := Scaled(keys[1..], m, factor);
      var a, s := m[keys[0]], SumOver(keys[1..], m);
      var d := Drop(keys[0], Share(a, factor));
      calc {
        SumDrops(Scaled(keys, m, factor));
        { assert Scaled(keys, m, factor) == [Drop(keys[0], Share(m[keys[0]], factor))] + Scaled(keys[1..], m, factor); }
        SumDrops([d] + rest);
        { assert ([d] + rest)[0] == d && ([d] + rest)[1..] == rest; }
        d.amount + SumDrops(rest);
        { SumScaled(keys[1..], m, factor); }
        Share(a, factor) + Share(s, factor);
        { Distribute(a, factor, s); }
        Share(a + s, factor);
      }
    }
  }

  /** The drops add up to exactly the total (in exact arithmetic). */
  lemma AllocateSumsToTotal(l: Ledger, total: real)
    requires l.Valid() && Total(l) != 0.0
    ensures SumDrops(Allocate(l, total)) == total
  {
    SumScaled(l.order, l.balance, Factor(total, Total(l)));
    ShareOfSum(total, Total(l));
  }

  /** With non-negative balances and a non-negative total, nobody receives
      a negative amount. */
  lemma AllocateNonNegative(l: Ledger, total: real)
    requires l.Valid() && Total(l) != 0.0
    requires total >= 0.0
    requires forall a :: a in l.balance ==> l.balance[a] >= 0.0
    ensures forall i :: 0 <= i < |Allocate(l, total)| ==> Allocate(l, total)[i].amount >= 0.0
  {
    SumOverNonNegative(l.order, l.balance);
    var f := Factor(total, Total(l));
    var drops := Allocate(l, total);
    assert drops == Scaled(l.order, l.balance, f);
    forall i | 0 <= i < |drops|
      ensures drops[i].amount >= 0.0
    {
      SignsOf(l.balance[l.order[i]], total, Total(l));
    }
  }

  /** The insertion order does not matter: two ledgers with the same
      balances give every address the same amount. */
  lemma AllocateOrderIndependent(l1: Ledger, l2: Ledger, total: real, i: nat, j: nat)
    requires l1.Valid() && l2.Valid() && l1.balance == l2.balance
    requires Total(l1) != 0.0
    requires i < |l1.order| && j < |l2.order| && l1.order[i] == l2.order[j]
    ensures Total(l2) != 0.0
    ensures Allocate(l1, total)[i] == Allocate(l2, total)[j]
  {
    TotalOrderIndependent(l1, l2);
    var f := Factor(total, Total(l1));
    calc {
      Allocate(l1, total)[i];
      Scaled(l1.order, l1.balance, f)[i];
      { ScaledSameKey(l1.order, l2.order, l1.balance, f, i, j); }
      Scaled(l2.order, l2.balance, f)[j];
      Allocate(l2, total)[j];
    }
  }

  /** The same key gets the same drop, wherever it stands in the order. */
  lemma ScaledSameKey(k1: seq<string>, k2: seq<string>, m: map<string, real>, f: real, i: nat, j: nat)
    requires forall k :: k in k1 ==> k in m
    requires forall k :: k in k2 ==> k in m
    requires i < |k1| && j < |k2| && k1[i] == k2[j]
    ensures Scaled(k1, m, f)[i] == Scaled(k2, m, f)[j]
  {
  }

  /** One row of the pre-distribution snapshot: current and expected balance. */
  datatype Expectation = Expectation(recipient: string, balance: real, expected: real)

  /** Why the snapshot could not be produced. */
  datatype SnapshotError = Unreadable(e: LoadError) | ZeroTotal

  /** Each drop's recipient with its balance before and after the drop. */
  function Raise(drops: seq<Drop>, m: map<string, real>): (rows: seq<Expectation>)
    requires forall i :: 0 <= i < |drops| ==> drops[i].recipient in m
    ensures |rows| == |drops|
    ensures forall i :: 0 <= i < |rows| ==> rows[i] == Expectation(drops[i].recipient, m[drops[i].recipient], m[drops[i].recipient] + drops[i].amount)
  {
    if |drops| == 0 then []
    else
      var b := m[drops[0].recipient];
      [Expectation(drops[0].recipient, b, b + drops[0].amount)] + Raise(drops[1..], m)
  }

  /** The expected balances of a loaded ledger (`expected = balance +
      balance * factor`): each address's balance plus its drop. */
  function Expect(l: Ledger, total: real): (rows: seq<Expectation>)
    requires l.Valid() && Total(l) != 0.0
    ensures |rows| == |l.order|
    ensures forall i :: 0 <= i < |rows| ==>
      && rows[i].recipient == l.order[i]
      && rows[i].balance == l.balance[l.order[i]]
      && rows[i].expected == rows[i].balance + Allocate(l, total)[i].amount
  {
    Raise(Allocate(l, total), l.balance)
  }

  /** The whole snapshot: load the address list, then predict. A bad line
      or a zero sum of balances stops it. */
  function Snapshot(lines: seq<string>, parse: string -> Option<real>, total: real): (r: Result<seq<Expectation>, SnapshotError>)
    ensures r.Err? && r.error.Unreadable? <==> !AllWellFormed(lines, parse)
    ensures r.Err? && r.error.Unreadable? ==> FirstBadLine(lines, parse, r.error.e)
    ensures r == Err(ZeroTotal) <==> Load(lines, parse).Ok? && Total(Load(lines, parse).value) == 0.0
    ensures r.Ok? <==> Load(lines, parse).Ok? && Total(Load(lines, parse).value) != 0.0
    ensures r.Ok? ==> |r.value| == |Dedup(Keys(lines))|
    ensures r.Ok? ==> forall i :: 0 <= i < |r.value| ==> r.value[i].recipient == Dedup(Keys(lines))[i]
    ensures r.Ok? ==> SumExpected(r.value) == Total(Load(lines, parse).value) + total
  {
    LoadVerdict(lines, parse);
    match Load(lines, parse)
    case Err(e) => Err(Unreadable(e))
    case Ok(l) =>
      if Total(l) == 0.0 then Err(ZeroTotal)
      else
        LoadOrder(lines, parse);
        ExpectSum(l, total);
        Ok(Expect(l, total))
  }

  /** Every predicted rise stands to the total as the balance stands to
      the sum of balances. */
  lemma ExpectProportional(l: Ledger, total: real)
    requires l.Valid() && Total(l) != 0.0
    ensures var rows := Expect(l, total);
      forall i :: 0 <= i < |rows| ==>
        Proportional(rows[i].expected - rows[i].balance, rows[i].balance, total, Total(l))
  {
    forall i | 0 <= i < |Expect(l, total)| {
      ExpectRowProportional(l, total, i);
    }
  }

  /** One row of `ExpectProportional`. */
  lemma ExpectRowProportional(l: Ledger, total: real, i: nat)
    requires l.Valid() && Total(l) != 0.0 && i < |l.order|
    ensures var e := Expect(l, total)[i];
      Proportional(e.expected - e.balance, e.balance, total, Total(l))
  {
    RiseProportional(Expect(l, total)[i], Allocate(l, total)[i].amount, total, Total(l));
  }

  /** A row whose rise is a proportional drop is itself proportional. */
  lemma RiseProportional(e: Expectation, d: real, total: real, sum: real)
    requires e.expected == e.balance + d && Proportional(d, e.balance, total, sum)
    ensures Proportional(e.expected - e.balance, e.balance, total, sum)
  {
  }

  /** Sum of the expected balances of a snapshot. */
  function SumExpected(rows: seq<Expectation>): real {
    if |rows| == 0 then 0.0 else rows[0].expected + SumExpected(rows[1..])
  }

  lemma {:induction false} SumRaise(drops: seq<Drop>, keys: seq<string>, m: map<string, real>)
    requires |drops| == |keys|
    requires forall i :: 0 <= i < |drops| ==> drops[i].recipient == keys[i] && keys[i] in m
    ensures SumExpected(Raise(drops, m)) == SumOver(keys, m) + SumDrops(drops)
  {
    if |drops| > 0 {
      SumRaise(drops[1..], keys[1..], m);
      assert Raise(drops, m)[1..] == Raise(drops[1..], m);
    }
  }

  /** After the drop the recipients together hold their old total plus the
      whole drop. */
  lemma ExpectSum(l: Ledger, total: real)
    requires l.Valid() && Total(l) != 0.0
    ensures SumExpected(Expect(l, total)) == Total(l) + total
  {
    SumRaise(Allocate(l, total), l.order, l.balance);
    AllocateSumsToTotal(l, total);
  }
}

=== FILE: balance_file.dfy ===
/** The fetcher's balance file read back by the distributor: the lines the
    fetcher writes are lines the distributor's loader accepts, and loading
    them gives back the balances that were written. */
module BalanceFile {
  import opened Results
  import opened Seqs
  import opened Text
  import opened Ledgers
  import opened AddressList
  import opened Accounts

  /** One line of the balance file as it is read back: the stripped
      holder, a comma, the balance as `str` renders it, and the line feed. */
  function BalanceLine(a: string, v: real, show: real -> string): string {
    Strip(a) + "," + show(v) + "\n"
  }

  /** The balance file of `keys`, one line per key, in order. */
  function BalanceLines(keys: seq<string>, m: map<string, real>, show: real -> string): (lines: seq<string>)
    requires forall k :: k in keys ==> k in m
    ensures |lines| == |keys|
    ensures forall i :: 0 <= i < |keys| ==> lines[i] == BalanceLine(keys[i], m[keys[i]], show)
  {
    seq(|keys|, i requires 0 <= i < |keys| => BalanceLine(keys[i], m[keys[i]], show))
  }

  /** An address the line format carries intact: no comma, no line feed
      and no surrounding whitespace (token addresses are base58). */
  predicate PlainAddress(a: string) {
    ',' !in a && '\n' !in a && Strip(a) == a
  }

  /** A rendering of `v` the loader reads back as `v`. */
  predicate Readable(show: real -> string, parse: string -> Option<real>, v: real) {
    ',' !in show(v) && '\n' !in show(v) && parse(Strip(show(v))) == Some(v)
  }

  /** The loader reads a written line back as its holder and balance. */
  lemma ParseBalanceLine(a: string, v: real, show: real -> string, parse: string -> Option<real>, index: nat)
    requires PlainAddress(a) && Readable(show, parse, v)
    ensures ParseLine(BalanceLine(a, v, show), index, parse) == Ok((a, v))
  {
    var rest := show(v) + "\n";
    assert BalanceLine(a, v, show) == a + [','] + rest;
    SplitConcat(a, ',', rest);
    assert Split(a, ',') == [a];
    assert ',' !in rest;
    assert Split(rest, ',') == [rest];
    StripTrailingNewline(show(v));
  }

  /** The part of `m` on `keys`. */
  function Restrict(keys: seq<string>, m: map<string, real>): map<string, real>
    requires forall k :: k in keys ==> k in m
  {
    map k | k in keys :: m[k]
  }

  lemma BalanceLinesSnoc(pre: seq<string>, k: string, m: map<string, real>, show: real -> string)
    requires forall x :: x in pre + [k] ==> x in m
    ensures BalanceLines(pre + [k], m, show) == BalanceLines(pre, m, show) + [BalanceLine(k, m[k], show)]
  {
  }

  lemma RestrictSnoc(pre: seq<string>, k: string, m: map<string, real>)
    requires forall x :: x in pre + [k] ==> x in m
    ensures Restrict(pre, m)[k := m[k]] == Restrict(pre + [k], m)
  {
  }

  lemma DistinctSnoc(pre: seq<string>, k: string)
    requires Distinct(pre + [k])
    ensures Distinct(pre) && k !in pre
  {
    var s := pre + [k];
    assert forall i :: 0 <= i < |pre| ==> s[i] == pre[i];
    forall j | 0 <= j < |pre|
      ensures pre[j] != k
    {
      assert s[j] != s[|pre|];
    }
  }

  lemma {:induction false} LoadBalanceLines(keys: seq<string>, m: map<string, real>,
                                            show: real -> string, parse: string -> Option<real>)
    requires Distinct(keys)
    requires forall k :: k in keys ==> k in m && PlainAddress(k) && Readable(show, parse, m[k])
    ensures Load(BalanceLines(keys, m, show), parse) == Ok(Ledger(keys, Restrict(keys, m)))
    decreases |keys|
  {
    if |keys| > 0 {
      var n := |keys| - 1;
      var pre := keys[..n];
      var k := keys[n];
      assert keys == pre + [k];
      DistinctSnoc(pre, k);
      BalanceLinesSnoc(pre, k, m, show);
      LoadBalanceLines(pre, m, show, parse);
      ParseBalanceLine(k, m[k], show, parse, n);
      LoadSnoc(BalanceLines(pre, m, show), BalanceLine(k, m[k], show), parse);
      RestrictSnoc(pre, k, m);
    }
  }

  /** Writing a ledger's balance file and loading it gives the ledger back. */
  lemma BalanceFileRoundTrip(l: Ledger, show: real -> string, parse: string -> Option<real>)
    requires l.Valid()
    requires forall k :: k in l.balance ==> PlainAddress(k) && Readable(show, parse, l.balance[k])
    ensures Load(BalanceLines(l.order, l.balance, show), parse) == Ok(l)
  {
    LoadBalanceLines(l.order, l.balance, show, parse);
    RestrictToOrder(l);
  }

  /** A valid ledger's balances are exactly those of its ordered keys. */
  lemma RestrictToOrder(l: Ledger)
    requires l.Valid()
    ensures Restrict(l.order, l.balance) == l.balance
  {
    var r := Restrict(l.order, l.balance);
    assert forall k :: k in r <==> k in l.balance;
  }

  /** The fetcher's aggregated balances, written and loaded by the
      distributor, give the distributor the same holders in the same order,
      and a total equal to the summed balance of every fetched account. */
  lemma FetchThenLoad(accs: seq<Account>, t: AddressType, show: real -> string, parse: string -> Option<real>)
    requires forall i :: 0 <= i < |accs| ==> PlainAddress(ExtractOwner(accs[i], t))
    requires forall k :: k in Aggregate(accs, t).balance ==> Readable(show, parse, Aggregate(accs, t).balance[k])
    ensures var l := Aggregate(accs, t);
      && Load(BalanceLines(l.order, l.balance, show), parse) == Ok(l)
      && l.order == OwnerList(accs, t)
      && Total(l) == SumBalances(accs)
  {
    var l := Aggregate(accs, t);
    AggregateOrder(accs, t);
    forall k | k in l.balance
      ensures PlainAddress(k)
    {
      assert k in OwnerList(accs, t);
    }
    BalanceFileRoundTrip(l, show, parse);
    AggregateTotal(accs, t);
  }
}

=== FILE: classifier.dfy ===
/** What one run of the wallet's transfer command means for the session:
    delivered, worth another try, or finished without a delivery; and the
    retry loop that keeps running the command until the answer is final. */
module Classifier {
  import opened Results
  import opened Text

  /** Error-stream markers, checked in this order after a non-zero exit. */
  const TooManyRequests := "429 Too Many Requests"
  const RpcError := "RPC response error -32005"
  const NotConfirmedMarker := "unable to confirm transaction"

  /** Exit code, standard output and standard error of one run, decoded. */
  datatype ProcResult = ProcResult(code: int, out: string, err: string)

  /** Why a run is tried again. */
  datatype Transient = RateLimited | RpcBusy

  /** How a recipient's transfer ends. */
  datatype Terminal = Delivered | NotConfirmed | Rejected(summary: string)

  datatype Verdict = Retry(kind: Transient) | Final(outcome: Terminal)

  /** The first piece of a split is the text up to the first separator. */
  lemma FirstPiece(s: string, sep: char)
    ensures var p := Split(s, sep)[0];
      |p| <= |s| && p == s[..|p|] && sep !in p && (|p| == |s| || s[|p|] == sep)
  {
  }

  /** The failed-log error field: the first line of the error stream with
      every comma made a space, ended by a line feed. */
  function ErrorSummary(err: string): (s: string)
    ensures |s| >= 1 && s[|s| - 1] == '\n'
    ensures |s| - 1 <= |err| && (|s| - 1 == |err| || err[|s| - 1] == '\n')
    ensures forall i :: 0 <= i < |s| - 1 ==>
      err[i] != '\n' && s[i] == if err[i] == ',' then ' ' else err[i]
    ensures ',' !in s
  {
    FirstPiece(err, '\n');
    Replace(Split(err, '\n')[0], ',', ' ') + "\n"
  }

  /** The session's reading of one run. */
  function Classify(r: ProcResult): (v: Verdict)
    ensures v == Final(Delivered) <==> r.code == 0
    ensures v == Retry(RateLimited) <==> r.code != 0 && Contains(r.err, TooManyRequests)
    ensures v == Retry(RpcBusy) <==>
      r.code != 0 && !Contains(r.err, TooManyRequests) && Contains(r.err, RpcError)
    ensures v == Final(NotConfirmed) <==>
      r.code != 0 && !Contains(r.err, TooManyRequests) && !Contains(r.err, RpcError)
      && Contains(r.err, NotConfirmedMarker)
    ensures v.Final? && v.outcome.Rejected? ==>
      r.code != 0 && !Contains(r.err, TooManyRequests) && !Contains(r.err, RpcError)
      && !Contains(r.err, NotConfirmedMarker) && v.outcome.summary == ErrorSummary(r.err)
  {
    if r.code == 0 then Final(Delivered)
    else if Contains(r.err, TooManyRequests) then Retry(RateLimited)
    else if Contains(r.err, RpcError) then Retry(RpcBusy)
    else if Contains(r.err, NotConfirmedMarker) then Final(NotConfirmed)
    else Final(Rejected(ErrorSummary(r.err)))
  }

  /** How a recipient's run loop ended: its outcome, the run that decided
      it, the error streams of the runs retried before it (each followed by
      a line feed, as the transcript records them) and the number of runs. */
  datatype Attempts = Attempts(outcome: Terminal, last: ProcResult, retried: seq<string>, runs: nat)

  /** Runs the command, result by result, until one is final; `None` when
      the results run out first (the operator's interrupt ends the loop). */
  function RunUntilFinal(rs: seq<ProcResult>): (a: Option<Attempts>)
    ensures a.None? <==> forall i :: 0 <= i < |rs| ==> Classify(rs[i]).Retry?
    ensures a.Some? ==>
      && 1 <= a.value.runs <= |rs|
      && a.value.last == rs[a.value.runs - 1]
      && Classify(a.value.last) == Final(a.value.outcome)
      && |a.value.retried| == a.value.runs - 1
      && forall i :: 0 <= i < a.value.runs - 1 ==>
           Classify(rs[i]).Retry? && a.value.retried[i] == rs[i].err + "\n"
  {
    if |rs| == 0 then None
    else match Classify(rs[0])
      case Final(t) => Some(Attempts(t, rs[0], [], 1))
      case Retry(_) =>
        match RunUntilFinal(rs[1..])
        case None => None
        case Some(a) => Some(a.(retried := [rs[0].err + "\n"] + a.retried, runs := a.runs + 1))
  }

  /** Number of results classified as retries before the first final one. */
  function LeadingTransients(rs: seq<ProcResult>): nat {
    if |rs| == 0 || Classify(rs[0]).Final? then 0 else 1 + LeadingTransients(rs[1..])
  }

  /** The command runs once more than the number of leading transient
      results, and the first final result decides the outcome. */
  lemma {:induction false} RunCount(rs: seq<ProcResult>)
    requires RunUntilFinal(rs).Some?
    ensures RunUntilFinal(rs).value.runs == 1 + LeadingTransients(rs)
    ensures LeadingTransients(rs) < |rs| && Classify(rs[LeadingTransients(rs)]).Final?
  {
    if Classify(rs[0]).Retry? {
      RunCount(rs[1..]);
    }
  }

  /** Results after the deciding run are never consumed. */
  lemma {:induction false} RunUntilFinalIgnoresRest(rs: seq<ProcResult>, more: seq<ProcResult>)
    requires RunUntilFinal(rs).Some?
    ensures RunUntilFinal(rs + more) == RunUntilFinal(rs)
  {
    assert (rs + more)[0] == rs[0];
    if Classify(rs[0]).Retry? {
      assert (rs + more)[1..] == rs[1..] + more;
      RunUntilFinalIgnoresRest(rs[1..], more);
    }
  }

  /** The retry loop's reading of a first run: a zero exit code ends the
      loop at once whatever the error stream says, and a rate limit is
      logged and retried even when the stream also reports an RPC error or
      an unconfirmed transfer, leaving the outcome to the later runs. */
  lemma RateLimitRetried(r: ProcResult, rest: seq<ProcResult>)
    ensures r.code == 0 ==> RunUntilFinal([r] + rest) == Some(Attempts(Delivered, r, [], 1))
    ensures r.code != 0 && Contains(r.err, TooManyRequests) ==>
      RunUntilFinal([r] + rest) ==
        match RunUntilFinal(rest)
        case None => None
        case Some(a) => Some(a.(retried := [r.err + "\n"] + a.retried, runs := a.runs + 1))
  {
    assert ([r] + rest)[0] == r;
    assert ([r] + rest)[1..] == rest;
  }

  /** Of a multi-line error only the first line reaches the failed log,
      and a one-line error reaches it whole. */
  lemma ErrorSummaryFirstLine(line: string, rest: string)
    requires '\n' !in line
    ensures ErrorSummary(line + "\n" + rest) == Replace(line, ',', ' ') + "\n"
    ensures ErrorSummary(line) == Replace(line, ',', ' ') + "\n"
  {
    assert line + "\n" + rest == line + ['\n'] + rest;
    SplitFirst(line, '\n', rest);
  }
}

=== FILE: fetcher.dfy ===
/** The address fetcher's menus: after the exclusion list, one of three
    submenus narrows the fetched accounts, and the writer turns the result
    into an owner list and per-holder balances. */
module Fetcher {
  import opened Results
  import opened Seqs
  import opened Ledgers
  import opened Accounts
  import opened Filters

  /** The eight options of the positive-balance submenu; the four threshold
      options share one constructor. */
  datatype PositiveChoice =
    | AllPositive
    | TopN(n: real)
    | BottomN(n: real)
    | RandomN(n: real, choose: seq<nat>)
    | Thresholded(th: Threshold)

  /** The two options of the all-holders and no-tokens submenus. */
  datatype SubChoice = Everyone | RandomSome(n: real, choose: seq<nat>)

  /** The positive-balance option applied to the positive accounts. */
  function PositiveOption(filtered: seq<Account>, c: PositiveChoice): (r: Result<seq<Account>, SampleError>)
    requires c.RandomN? ==> ValidChoice(|filtered|, Trunc(c.n), c.choose)
    ensures r.Err? <==> c.RandomN? && (Trunc(c.n) < 0 || Trunc(c.n) > |filtered|)
    ensures r.Ok? ==> multiset(r.value) <= multiset(filtered)
  {
    match c
    case AllPositive => Ok(filtered)
    case TopN(n) => Ok(Extremes(filtered, n, true))
    case BottomN(n) => Ok(Extremes(filtered, n, false))
    case RandomN(n, choose) => Sample(filtered, n, choose)
    case Thresholded(th) =>
      var r := ApplyThreshold(filtered, th);
      assert multiset(r) <= multiset(filtered);
      Ok(r)
  }

  /** The positive-balance submenu: keep positive balances, apply the
      option, and sort by non-increasing balance. */
  function PositiveSubmenu(accs: seq<Account>, c: PositiveChoice): (r: Result<seq<Account>, SampleError>)
    requires c.RandomN? ==> ValidChoice(|Positive(accs)|, Trunc(c.n), c.choose)
    ensures r.Err? <==> c.RandomN? && (Trunc(c.n) < 0 || Trunc(c.n) > |Positive(accs)|)
    ensures r.Ok? ==> SortedBy(r.value, true)
    ensures r.Ok? ==> multiset(r.value) <= multiset(Positive(accs))
  {
    match PositiveOption(Positive(accs), c)
    case Err(e) => Err(e)
    case Ok(l) => Ok(SortByBalance(l, true))
  }

  /** Everything the positive-balance submenu yields is a fetched account
      with a positive balance. */
  lemma PositiveSubmenuSound(accs: seq<Account>, c: PositiveChoice)
    requires c.RandomN? ==> ValidChoice(|Positive(accs)|, Trunc(c.n), c.choose)
    ensures var r := PositiveSubmenu(accs, c);
      r.Ok? ==> multiset(r.value) <= multiset(accs) && forall a :: a in r.value ==> ExtractBalance(a) > 0.0
  {
    var r := PositiveSubmenu(accs, c);
    if r.Ok? {
      var f := Positive(accs);
      assert multiset(f) <= multiset(accs);
      forall a | a in r.value
        ensures ExtractBalance(a) > 0.0
      {
        assert a in multiset(r.value);
        assert a in multiset(f);
      }
    }
  }

  /** "Get all users" yields exactly the positive accounts. */
  lemma AllPositiveKeepsAll(accs: seq<Account>)
    ensures PositiveSubmenu(accs, AllPositive).Ok?
    ensures multiset(PositiveSubmenu(accs, AllPositive).value) == multiset(Positive(accs))
  {
  }

  /** A threshold option yields exactly the positive accounts that pass it. */
  lemma ThresholdKeepsPassing(accs: seq<Account>, th: Threshold)
    ensures var r := PositiveSubmenu(accs, Thresholded(th));
      && r.Ok?
      && forall a :: multiset(r.value)[a] ==
           (if ExtractBalance(a) > 0.0 && Passes(th, ExtractBalance(a)) then multiset(accs)[a] else 0)
  {
    var f := Positive(accs);
    var t := ApplyThreshold(f, th);
    assert PositiveOption(f, Thresholded(th)) == Ok(t);
    var r := SortByBalance(t, true);
    assert PositiveSubmenu(accs, Thresholded(th)) == Ok(r);
    assert multiset(r) == multiset(t);
  }

  /** Re-sorting the top or bottom N keeps what was chosen. */
  lemma ResortedExtremes(filtered: seq<Account>, n: real, desc: bool)
    requires n >= 0.0
    ensures var r := SortByBalance(Extremes(filtered, n, desc), true);
      && |r| == (if Trunc(n) <= |filtered| then Trunc(n) else |filtered|)
      && forall a, b :: a in r && b in multiset(filtered) - multiset(r) ==> Precedes(a, b, desc)
  {
    var e := Extremes(filtered, n, desc);
    ExtremesChooseExtremes(filtered, n, desc);
    var r := SortByBalance(e, true);
    forall a | a in r
      ensures a in e
    {
      assert a in multiset(e);
    }
  }

  /** The top-N option yields `min(N, positives)` accounts, and no positive
      account left out holds more than any account chosen. */
  lemma TopNAreLargest(accs: seq<Account>, n: real)
    requires n >= 0.0
    ensures var r := PositiveSubmenu(accs, TopN(n));
      && r.Ok?
      && |r.value| == (if Trunc(n) <= |Positive(accs)| then Trunc(n) else |Positive(accs)|)
      && forall a, b :: a in r.value && b in multiset(Positive(accs)) - multiset(r.value) ==>
           ExtractBalance(a) >= ExtractBalance(b)
  {
    var f := Positive(accs);
    assert PositiveOption(f, TopN(n)) == Ok(Extremes(f, n, true));
    assert PositiveSubmenu(accs, TopN(n)) == Ok(SortByBalance(Extremes(f, n, true), true));
    ResortedExtremes(f, n, true);
    var r := SortByBalance(Extremes(f, n, true), true);
    forall a, b | a in r && b in multiset(f) - multiset(r)
      ensures ExtractBalance(a) >= ExtractBalance(b)
    {
      assert Precedes(a, b, true);
    }
  }

  /** The bottom-N option yields `min(N, positives)` accounts, and no
      positive account left out holds less than any account chosen. */
  lemma BottomNAreSmallest(accs: seq<Account>, n: real)
    requires n >= 0.0
    ensures var r := PositiveSubmenu(accs, BottomN(n));
      && r.Ok?
      && |r.value| == (if Trunc(n) <= |Positive(accs)| then Trunc(n) else |Positive(accs)|)
      && forall a, b :: a in r.value && b in multiset(Positive(accs)) - multiset(r.value) ==>
           ExtractBalance(a) <= ExtractBalance(b)
  {
    var f := Positive(accs);
    assert PositiveOption(f, BottomN(n)) == Ok(Extremes(f, n, false));
    assert PositiveSubmenu(accs, BottomN(n)) == Ok(SortByBalance(Extremes(f, n, false), true));
    ResortedExtremes(f, n, false);
    var r := SortByBalance(Extremes(f, n, false), true);
    forall a, b | a in r && b in multiset(f) - multiset(r)
      ensures ExtractBalance(a) <= ExtractBalance(b)
    {
      assert Precedes(a, b, false);
    }
  }

  /** The all-holders submenu: everyone, or a random few, sorted by
      non-increasing balance. */
  function AllSubmenu(accs: seq<Account>, c: SubChoice): (r: Result<seq<Account>, SampleError>)
    requires c.RandomSome? ==> ValidChoice(|accs|, Trunc(c.n), c.choose)
    ensures r.Err? <==> c.RandomSome? && (Trunc(c.n) < 0 || Trunc(c.n) > |accs|)
    ensures r.Ok? ==> SortedBy(r.value, true) && multiset(r.value) <= multiset(accs)
    ensures r.Ok? && c.Everyone? ==> multiset(r.value) == multiset(accs)
  {
    match c
    case Everyone => Ok(SortByBalance(accs, true))
    case RandomSome(n, choose) =>
      match Sample(accs, n, choose)
      case Err(e) => Err(e)
      case Ok(l) => Ok(SortByBalance(l, true))
  }

  /** The no-tokens submenu: the zero-balance accounts, or a random few of
      them, unsorted. */
  function NoTokensSubmenu(accs: seq<Account>, c: SubChoice): (r: Result<seq<Account>, SampleError>)
    requires c.RandomSome? ==> ValidChoice(|ZeroOnly(accs)|, Trunc(c.n), c.choose)
    ensures r.Err? <==> c.RandomSome? && (Trunc(c.n) < 0 || Trunc(c.n) > |ZeroOnly(accs)|)
    ensures r.Ok? ==> multiset(r.value) <= multiset(ZeroOnly(accs)) && multiset(r.value) <= multiset(accs)
    ensures r.Ok? ==> forall a :: a in r.value ==> ExtractBalance(a) == 0.0
    ensures r.Ok? && c.Everyone? ==> r.value == ZeroOnly(accs)
  {
    var zeros := ZeroOnly(accs);
    assert multiset(zeros) <= multiset(accs);
    var r := match c
      case Everyone => Ok(zeros)
      case RandomSome(n, choose) => Sample(zeros, n, choose);
    assert r.Ok? ==> forall a :: a in r.value ==> ExtractBalance(a) == 0.0 by {
      if r.Ok? {
        forall a | a in r.value
          ensures ExtractBalance(a) == 0.0
        {
          assert a in multiset(r.value);
          assert a in multiset(zeros);
        }
      }
    }
    r
  }

  /** The top menu's three filtering options. */
  datatype Menu = AllHolders(all: SubChoice) | PositiveHolders(positive: PositiveChoice) | NoTokenHolders(none: SubChoice)

  /** The fetched accounts without those of excluded holders, when an
      exclusion list is given. */
  function Candidates(accs: seq<Account>, t: AddressType, excluded: Option<seq<string>>): (r: seq<Account>)
    ensures excluded.None? ==> r == accs
    ensures excluded.Some? ==> r == Exclude(accs, t, excluded.value)
  {
    if excluded.Some? then Exclude(accs, t, excluded.value) else accs
  }

  /** The random positions given fit the population the chosen submenu
      samples from. */
  predicate MenuFits(list: seq<Account>, m: Menu) {
    match m
    case AllHolders(c) => c.RandomSome? ==> ValidChoice(|list|, Trunc(c.n), c.choose)
    case PositiveHolders(c) => c.RandomN? ==> ValidChoice(|Positive(list)|, Trunc(c.n), c.choose)
    case NoTokenHolders(c) => c.RandomSome? ==> ValidChoice(|ZeroOnly(list)|, Trunc(c.n), c.choose)
  }

  /** The menu's selection from the candidates. */
  function Select(list: seq<Account>, m: Menu): (r: Result<seq<Account>, SampleError>)
    requires MenuFits(list, m)
    ensures r.Ok? ==> multiset(r.value) <= multiset(list)
  {
    match m
    case AllHolders(c) => AllSubmenu(list, c)
    case PositiveHolders(c) =>
      PositiveSubmenuSound(list, c);
      PositiveSubmenu(list, c)
    case NoTokenHolders(c) => NoTokensSubmenu(list, c)
  }

  /** What the writer produces: the token part of the folder name, the
      owner list and the per-holder balances. */
  datatype Output = Output(token: string, owners: seq<string>, balances: Ledger)

  /** The writer: the balance file lists exactly the holders of the owner
      file, in the same order, each with the sum of its accounts. */
  function WriteFile(accs: seq<Account>, t: AddressType, token: string, mint: string): (o: Output)
    ensures o.balances.Valid()
    ensures o.balances.order == o.owners
    ensures forall a :: a in o.owners <==> exists i :: 0 <= i < |accs| && ExtractOwner(accs[i], t) == a
    ensures forall a :: a in o.balances.balance ==> o.balances.balance[a] == SumFor(accs, t, a)
  {
    AggregateOrder(accs, t);
    Output(TokenName(token, mint), OwnerList(accs, t), Aggregate(accs, t))
  }

  /** A whole fetcher run on the fetched accounts: exclusion, menu, writer.
      No excluded holder reaches the output files. */
  function Fetch(accs: seq<Account>, t: AddressType, excluded: Option<seq<string>>, m: Menu,
                 token: string, mint: string): (r: Result<Output, SampleError>)
    requires MenuFits(Candidates(accs, t, excluded), m)
    ensures r.Err? <==> Select(Candidates(accs, t, excluded), m).Err?
    ensures r.Ok? && excluded.Some? ==> forall a :: a in r.value.owners ==> a !in excluded.value
  {
    var list := Candidates(accs, t, excluded);
    match Select(list, m)
    case Err(e) => Err(e)
    case Ok(chosen) =>
      var o := WriteFile(chosen, t, token, mint);
      assert excluded.Some? ==> forall a :: a in o.owners ==> a !in excluded.value by {
        if excluded.Some? {
          forall a | a in o.owners
            ensures a !in excluded.value
          {
            var i :| 0 <= i < |chosen| && ExtractOwner(chosen[i], t) == a;
            assert chosen[i] in multiset(chosen);
            assert chosen[i] in multiset(list);
          }
        }
      }
      Ok(o)
  }
}

=== FILE: filters.dfy ===
/** The address fetcher's list operations on token accounts: the exclusion
    list, the balance filters, the stable sort by balance, Python's slice
    for the top and bottom N, and the random sample. */
module Filters {
  import opened Results
  import opened Seqs
  import opened Accounts

  /** The accounts whose holder is not on the exclusion list, in list order. */
  function Exclude(accs: seq<Account>, t: AddressType, excluded: seq<string>): (r: seq<Account>)
    ensures forall a :: multiset(r)[a] == if ExtractOwner(a, t) !in excluded then multiset(accs)[a] else 0
  {
    var keep := a => ExtractOwner(a, t) !in excluded;
    FilterMultiset(accs, keep);
    Filter(accs, keep)
  }

  /** Excluding is done piecewise, so the kept accounts keep their order. */
  lemma ExcludeAppend(a: seq<Account>, b: seq<Account>, t: AddressType, excluded: seq<string>)
    ensures Exclude(a + b, t, excluded) == Exclude(a, t, excluded) + Exclude(b, t, excluded)
  {
    FilterAppend(a, b, a => ExtractOwner(a, t) !in excluded);
  }

  /** No kept account belongs to an excluded holder. */
  lemma ExcludeSound(accs: seq<Account>, t: AddressType, excluded: seq<string>)
    ensures forall a :: a in Exclude(accs, t, excluded) ==> ExtractOwner(a, t) !in excluded
  {
    var r := Exclude(accs, t, excluded);
    forall a | a in r
      ensures ExtractOwner(a, t) !in excluded
    {
      assert multiset(r)[a] > 0;
    }
  }

  /** The positive-balance base filter. */
  function Positive(accs: seq<Account>): (r: seq<Account>)
    ensures forall a :: multiset(r)[a] == if ExtractBalance(a) > 0.0 then multiset(accs)[a] else 0
  {
    var keep := a => ExtractBalance(a) > 0.0;
    FilterMultiset(accs, keep);
    Filter(accs, keep)
  }

  /** The zero-token filter. */
  function ZeroOnly(accs: seq<Account>): (r: seq<Account>)
    ensures forall a :: multiset(r)[a] == if ExtractBalance(a) == 0.0 then multiset(accs)[a] else 0
  {
    var keep := a => ExtractBalance(a) == 0.0;
    FilterMultiset(accs, keep);
    Filter(accs, keep)
  }

  /** An account whose amount is missing counts as holding nothing: the
      zero-token filter keeps it and the positive-balance filter drops it. */
  lemma MissingAmountCountsAsZero(accs: seq<Account>, acc: Account)
    requires acc.uiAmount.None?
    ensures acc in accs ==> acc in ZeroOnly(accs)
    ensures acc !in Positive(accs)
  {
    if acc in accs {
      assert multiset(ZeroOnly(accs))[acc] == multiset(accs)[acc] > 0;
    }
    assert multiset(Positive(accs))[acc] == 0;
  }

  /** The four threshold options of the positive-balance menu. */
  datatype Threshold =
    | Above(x: real)              // more than x
    | AtLeast(x: real)            // at least x
    | BelowPositive(x: real)      // less than x and more than 0
    | Between(x: real, y: real)   // less than x and at least y

  predicate Passes(th: Threshold, b: real) {
    match th
    case Above(x) => b > x
    case AtLeast(x) => b >= x
    case BelowPositive(x) => b < x && b > 0.0
    case Between(x, y) => b < x && b >= y
  }

  /** The accounts whose balance passes a threshold option. */
  function ApplyThreshold(accs: seq<Account>, th: Threshold): (r: seq<Account>)
    ensures forall a :: multiset(r)[a] == if Passes(th, ExtractBalance(a)) then multiset(accs)[a] else 0
  {
    var keep := a => Passes(th, ExtractBalance(a));
    FilterMultiset(accs, keep);
    Filter(accs, keep)
  }

  /** `a` may stand before `b`: by non-increasing balance when `desc`
      (`reverse=True`), by non-decreasing balance otherwise. */
  predicate Precedes(a: Account, b: Account, desc: bool) {
    if desc then ExtractBalance(a) >= ExtractBalance(b) else ExtractBalance(a) <= ExtractBalance(b)
  }

  predicate SortedBy(s: seq<Account>, desc: bool) {
    forall i, j :: 0 <= i < j < |s| ==> Precedes(s[i], s[j], desc)
  }

  /** Places `x` before the first element it may precede, so that it stays
      ahead of the equal-balance elements that came after it. */
  function Insert(x: Account, s: seq<Account>, desc: bool): (r: seq<Account>)
    ensures multiset(r) == multiset(s) + multiset{x}
  {
    if |s| == 0 || Precedes(x, s[0], desc) then [x] + s
    else
      assert s == [s[0]] + s[1..];
      [s[0]] + Insert(x, s[1..], desc)
  }

  /** An element that may precede everything in a sorted list may lead it. */
  lemma SortedCons(y: Account, s: seq<Account>, desc: bool)
    requires SortedBy(s, desc)
    requires forall b :: b in s ==> Precedes(y, b, desc)
    ensures SortedBy([y] + s, desc)
  {
    var r := [y] + s;
    forall i, j | 0 <= i < j < |r|
      ensures Precedes(r[i], r[j], desc)
    {
      assert r[j] == s[j - 1];
      if i > 0 {
        assert r[i] == s[i - 1];
      }
    }
  }

  /** Whatever may precede the list and the inserted element may precede
      the result. */
  lemma InsertBounded(x: Account, s: seq<Account>, desc: bool, y: Account)
    requires Precedes(y, x, desc)
    requires forall b :: b in s ==> Precedes(y, b, desc)
    ensures forall b :: b in Insert(x, s, desc) ==> Precedes(y, b, desc)
  {
    forall b | b in Insert(x, s, desc)
      ensures Precedes(y, b, desc)
    {
      assert b in multiset(Insert(x, s, desc));
      assert b == x || b in multiset(s);
    }
  }

  /** Inserting into a sorted list keeps it sorted. */
  lemma {:induction false} InsertSorted(x: Account, s: seq<Account>, desc: bool)
    requires SortedBy(s, desc)
    ensures SortedBy(Insert(x, s, desc), desc)
  {
    if |s| > 0 && !Precedes(x, s[0], desc) {
      var tail := s[1..];
      InsertSorted(x, tail, desc);
      forall b | b in tail
        ensures Precedes(s[0], b, desc)
      {
        var j :| 0 <= j < |tail| && tail[j] == b;
        assert s[j + 1] == b;
      }
      InsertBounded(x, tail, desc, s[0]);
      SortedCons(s[0], Insert(x, tail, desc), desc);
    }
  }

  /** Python's `list.sort(key=extract_balance, reverse=desc)`. */
  function SortByBalance(s: seq<Account>, desc: bool): (r: seq<Account>)
    ensures SortedBy(r, desc)
    ensures multiset(r) == multiset(s)
    ensures |r| == |s|
  {
    if |s| == 0 then []
    else
      assert s == [s[0]] + s[1..];
      var rest := SortByBalance(s[1..], desc);
      InsertSorted(s[0], rest, desc);
      Insert(s[0], rest, desc)
  }

  /** The accounts with balance exactly `v`. */
  function WithBalance(s: seq<Account>, v: real): seq<Account> {
    Filter(s, BalanceIs(v))
  }

  function BalanceIs(v: real): Account -> bool {
    a => ExtractBalance(a) == v
  }

  /** An element passed over by the insertion cannot tie with the
      inserted one, so filtering by balance sees them in either order. */
  lemma TieStep(s0: Account, x: Account, r: seq<Account>, t: seq<Account>, keep: Account -> bool)
    requires !(keep(x) && keep(s0))
    requires Filter(r, keep) == (if keep(x) then [x] else []) + Filter(t, keep)
    ensures Filter([s0] + r, keep) == (if keep(x) then [x] else []) + Filter([s0] + t, keep)
  {
    FilterCons(s0, r, keep);
    FilterCons(s0, t, keep);
  }

  lemma {:induction false} InsertKeepsTies(x: Account, s: seq<Account>, desc: bool, v: real)
    ensures WithBalance(Insert(x, s, desc), v)
         == (if ExtractBalance(x) == v then [x] else []) + WithBalance(s, v)
  {
    if |s| == 0 || Precedes(x, s[0], desc) {
      assert Insert(x, s, desc) == [x] + s;
      FilterCons(x, s, BalanceIs(v));
    } else {
      var rest := Insert(x, s[1..], desc);
      assert Insert(x, s, desc) == [s[0]] + rest;
      InsertKeepsTies(x, s[1..], desc, v);
      TieStep(s[0], x, rest, s[1..], BalanceIs(v));
      assert [s[0]] + s[1..] == s;
    }
  }

  /** The sort is stable: the accounts of any one balance come out in their
      original relative order. */
  lemma {:induction false} SortIsStable(s: seq<Account>, desc: bool, v: real)
    ensures WithBalance(SortByBalance(s, desc), v) == WithBalance(s, v)
  {
    if |s| > 0 {
      SortIsStable(s[1..], desc, v);
      InsertKeepsTies(s[0], SortByBalance(s[1..], desc), desc, v);
    }
  }

  /** `int(x)`: truncation toward zero. */
  function Trunc(x: real): (n: int)
    ensures x >= 0.0 ==> n as real <= x < n as real + 1.0
    ensures x < 0.0 ==> n as real - 1.0 < x <= n as real
  {
    if x >= 0.0 then x.Floor else -((-x).Floor)
  }

  /** Python's `s[:n]`: a negative `n` counts from the end. */
  function PyTake<T>(s: seq<T>, n: int): (r: seq<T>)
    ensures |r| == if n >= 0 then (if n <= |s| then n else |s|) else (if -n <= |s| then |s| + n else 0)
    ensures r == s[..|r|]
  {
    if n >= 0 then (if n <= |s| then s[..n] else s)
    else (if -n <= |s| then s[..|s| + n] else [])
  }

  /** The top (`desc`) or bottom N accounts by balance. */
  function Extremes(accs: seq<Account>, n: real, desc: bool): (r: seq<Account>)
    ensures multiset(r) <= multiset(accs)
  {
    var sorted := SortByBalance(accs, desc);
    var r := PyTake(sorted, Trunc(n));
    assert sorted == r + sorted[|r|..];
    r
  }

  /** In a sorted list every element of a prefix may precede every element
      outside it. */
  lemma SortedPrefixLeads(sorted: seq<Account>, k: nat, desc: bool)
    requires SortedBy(sorted, desc) && k <= |sorted|
    ensures forall a, b :: a in sorted[..k] && b in multiset(sorted) - multiset(sorted[..k]) ==> Precedes(a, b, desc)
  {
    var r := sorted[..k];
    assert sorted == r + sorted[k..];
    assert multiset(sorted) == multiset(r) + multiset(sorted[k..]);
    forall a, b | a in r && b in multiset(sorted) - multiset(r)
      ensures Precedes(a, b, desc)
    {
      var i :| 0 <= i < k && r[i] == a;
      assert b in multiset(sorted[k..]);
      assert b in sorted[k..];
      var j :| 0 <= j < |sorted| - k && sorted[k..][j] == b;
      assert sorted[i] == a && sorted[k + j] == b;
    }
  }

  /** For N at least zero the top (bottom) N are `min(N, |accs|)` accounts
      taken from `accs`, and every account left out has a balance no
      larger (smaller) than every account taken. */
  lemma ExtremesChooseExtremes(accs: seq<Account>, n: real, desc: bool)
    requires n >= 0.0
    ensures var r := Extremes(accs, n, desc);
      && |r| == (if Trunc(n) <= |accs| then Trunc(n) else |accs|)
      && multiset(r) <= multiset(accs)
      && forall a, b :: a in r && b in multiset(accs) - multiset(r) ==> Precedes(a, b, desc)
  {
    var sorted := SortByBalance(accs, desc);
    var r := Extremes(accs, n, desc);
    assert r == sorted[..|r|];
    SortedPrefixLeads(sorted, |r|, desc);
  }

  /** `random.sample` asked for more than the population or for a negative
      count. */
  datatype SampleError = TooManyRequested

  /** The random positions `random.sample` would pick: `k` distinct
      positions of the population, whenever `k` is a count it accepts. */
  predicate ValidChoice(size: nat, k: int, choose: seq<nat>) {
    0 <= k <= size ==>
      |choose| == k && Distinct(choose) && forall i :: 0 <= i < |choose| ==> choose[i] < size
  }

  /** The elements at the chosen positions. */
  function Pick(pop: seq<Account>, choose: seq<nat>): (r: seq<Account>)
    requires forall i :: 0 <= i < |choose| ==> choose[i] < |pop|
    ensures |r| == |choose| && forall i :: 0 <= i < |choose| ==> r[i] == pop[choose[i]]
  {
    seq(|choose|, i requires 0 <= i < |choose| => pop[choose[i]])
  }

  lemma PickAppend(pop: seq<Account>, a: seq<nat>, b: seq<nat>)
    requires forall i :: 0 <= i < |a + b| ==> (a + b)[i] < |pop|
    ensures forall i :: 0 <= i < |a| ==> a[i] < |pop|
    ensures forall i :: 0 <= i < |b| ==> b[i] < |pop|
    ensures Pick(pop, a + b) == Pick(pop, a) + Pick(pop, b)
  {
    assert forall i :: 0 <= i < |a| ==> a[i] == (a + b)[i];
    assert forall i :: 0 <= i < |b| ==> b[i] == (a + b)[|a| + i];
  }

  /** Dropping one position from distinct positions below `bound + 1`
      that hold `bound` there leaves distinct positions below `bound`. */
  lemma DropPosition(choose: seq<nat>, p: nat, bound: nat)
    requires Distinct(choose) && p < |choose| && choose[p] == bound
    requires forall i :: 0 <= i < |choose| ==> choose[i] <= bound
    ensures var c := choose[..p] + choose[p + 1..];
      Distinct(c) && forall i :: 0 <= i < |c| ==> c[i] < bound
  {
    var c := choose[..p] + choose[p + 1..];
    forall i | 0 <= i < |c|
      ensures c[i] == choose[if i < p then i else i + 1]
    {
    }
  }

  /** Picking a list of positions picks, as a bag, the same as picking all
      but one of them plus the element at that one. */
  lemma PickSplit(pop: seq<Account>, choose: seq<nat>, p: nat, c: seq<nat>)
    requires p < |choose| && forall i :: 0 <= i < |choose| ==> choose[i] < |pop|
    requires c == choose[..p] + choose[p + 1..]
    ensures forall i :: 0 <= i < |c| ==> c[i] < |pop|
    ensures multiset(Pick(pop, choose)) == multiset(Pick(pop, c)) + multiset{pop[choose[p]]}
  {
    var a, x, b := choose[..p], choose[p], choose[p + 1..];
    assert choose == a + [x] + b;
    PickAppend(pop, a + [x], b);
    PickAppend(pop, a, [x]);
    PickAppend(pop, a, b);
    var pa, pb := Pick(pop, a), Pick(pop, b);
    calc {
      multiset(Pick(pop, choose));
      multiset(pa + Pick(pop, [x]) + pb);
      multiset(pa) + multiset(Pick(pop, [x])) + multiset(pb);
      { assert Pick(pop, [x]) == [pop[x]]; }
      multiset(pa + pb) + multiset{pop[x]};
    }
  }

  /** Positions below `k` pick the same from a list and from its first `k`. */
  lemma PickPrefix(pop: seq<Account>, choose: seq<nat>, k: nat)
    requires k <= |pop| && forall i :: 0 <= i < |choose| ==> choose[i] < k
    ensures Pick(pop, choose) == Pick(pop[..k], choose)
  {
  }

  /** Picking distinct positions takes each element at most as often as the
      population holds it. */
  lemma {:induction false} PickSubMultiset(pop: seq<Account>, choose: seq<nat>)
    requires Distinct(choose) && forall i :: 0 <= i < |choose| ==> choose[i] < |pop|
    ensures multiset(Pick(pop, choose)) <= multiset(pop)
    decreases |pop|
  {
    if |pop| > 0 {
      var last := |pop| - 1;
      var init := pop[..last];
      assert pop == init + [pop[last]];
      if last in choose {
        var p := IndexOf(choose, last);
        var c := choose[..p] + choose[p + 1..];
        DropPosition(choose, p, last);
        PickSubMultiset(init, c);
        PickSplit(pop, choose, p, c);
        PickPrefix(pop, c, last);
      } else {
        PickSubMultiset(init, choose);
        PickPrefix(pop, choose, last);
      }
    }
  }

  /** `random.sample(pop, int(n))`, with the positions it picks given. */
  function Sample(pop: seq<Account>, n: real, choose: seq<nat>): (r: Result<seq<Account>, SampleError>)
    requires ValidChoice(|pop|, Trunc(n), choose)
    ensures r.Err? <==> Trunc(n) < 0 || Trunc(n) > |pop|
    ensures r.Ok? ==> |r.value| == Trunc(n) && multiset(r.value) <= multiset(pop)
  {
    var k := Trunc(n);
    if k < 0 || k > |pop| then Err(TooManyRequested)
    else
      PickSubMultiset(pop, choose);
      Ok(Pick(pop, choose))
  }
}

=== FILE: ledger.dfy ===
/** The recipient ledger both tools exchange: an insertion-ordered mapping
    from address to balance, as Python's `OrderedDict` (and a plain `dict`)
    keeps it. */
module Ledgers {
  import opened Seqs

  /** Addresses in insertion order, and the balance recorded for each. */
  datatype Ledger = Ledger(order: seq<string>, balance: map<string, real>) {

    /** Every address appears once in `order`, and exactly the ordered
        addresses have a balance. */
    predicate Valid() {
      && Distinct(order)
      && (forall a :: a in order ==> a in balance)
      && (forall a :: a in balance ==> a in order)
    }
  }

  /** The ledger with no recipient. */
  const Empty: Ledger := Ledger([], map[])

  /** `d[k] = v` on an ordered dict: a new key goes last, an existing key
      keeps its position and takes the new value. */
  function Put(l: Ledger, k: string, v: real): (r: Ledger)
    requires l.Valid()
    ensures r.Valid()
    ensures r.balance == l.balance[k := v]
    ensures r.order == if k in l.balance then l.order else l.order + [k]
  {
    if k in l.balance then l.(balance := l.balance[k := v])
    else Ledger(l.order + [k], l.balance[k := v])
  }

  /** Sum of the balances of `keys`, taken left to right as `sum(d.values())`. */
  function SumOver(keys: seq<string>, m: map<string, real>): real
    requires forall k :: k in keys ==> k in m
  {
    if |keys| == 0 then 0.0 else m[keys[0]] + SumOver(keys[1..], m)
  }

  /** Sum of all balances of the ledger. */
  function Total(l: Ledger): real
    requires l.Valid()
  {
    SumOver(l.order, l.balance)
  }

  lemma {:induction false} SumOverAppend(a: seq<string>, b: seq<string>, m: map<string, real>)
    requires forall k :: k in a + b ==> k in m
    ensures SumOver(a + b, m) == SumOver(a, m) + SumOver(b, m)
  {
    if |a| > 0 {
      assert (a + b)[1..] == a[1..] + b;
      SumOverAppend(a[1..], b, m);
    } else {
      assert a + b == b;
    }
  }

  /** Taking one key out of the sum leaves the sum of the others. */
  lemma SumOverRemove(keys: seq<string>, j: nat, m: map<string, real>)
    requires j < |keys|
    requires forall k :: k in keys ==> k in m
    ensures SumOver(keys, m) == m[keys[j]] + SumOver(keys[..j] + keys[j + 1..], m)
  {
    assert keys == keys[..j] + [keys[j]] + keys[j + 1..];
    SumOverAppend(keys[..j] + [keys[j]], keys[j + 1..], m);
    SumOverAppend(keys[..j], [keys[j]], m);
    SumOverAppend(keys[..j], keys[j + 1..], m);
  }

  /** The sum does not depend on the order in which the keys are visited. */
  lemma {:induction false} SumOverPermutation(a: seq<string>, b: seq<string>, m: map<string, real>)
    requires Distinct(a) && Distinct(b)
    requires forall k :: k in a <==> k in b
    requires forall k :: k in a ==> k in m
    ensures SumOver(a, m) == SumOver(b, m)
  {
    if |a| > 0 {
      var j := IndexOf(b, a[0]);
      var b' := b[..j] + b[j + 1..];
      SumOverRemove(b, j, m);
      DistinctTail(a);
      DistinctRemove(b, j);
      SumOverPermutation(a[1..], b', m);
    }
  }

  /** Two valid ledgers with the same balances have the same total,
      whatever their insertion order. */
  lemma TotalOrderIndependent(l1: Ledger, l2: Ledger)
    requires l1.Valid() && l2.Valid()
    requires l1.balance == l2.balance
    ensures Total(l1) == Total(l2)
  {
    SumOverPermutation(l1.order, l2.order, l1.balance);
  }

  /** With non-negative balances the total is non-negative. */
  lemma {:induction false} SumOverNonNegative(keys: seq<string>, m: map<string, real>)
    requires forall k :: k in keys ==> k in m && m[k] >= 0.0
    ensures SumOver(keys, m) >= 0.0
  {
    if |keys| > 0 {
      SumOverNonNegative(keys[1..], m);
    }
  }
}

=== FILE: log_files.dfy ===
/** The transcript files of a distribution run. Each of the four row logs
    (success, canceled, failed, unconfirmed) is a header followed by the
    rows the session appended to it; the detailed log has no header and is
    just its entries. */
module LogFiles {
  import opened Seqs
  import opened Text

  const SuccessHeader := "recipient,amount,signature\n"
  const CanceledHeader := "recipient,amount\n"
  const FailedHeader := "recipient,amount,error\n"
  /** The unconfirmed-log header as the distributor writes it: without a
      line feed. */
  const UnconfirmedHeaderAsWritten := "recipient,amount,error"
  /** The unconfirmed-log header as its three sibling headers are written. */
  const UnconfirmedHeader := "recipient,amount,error\n"

  /** A log file's text: its header, then every appended row. */
  function FileText(header: string, rows: seq<string>): string {
    header + Concat(rows)
  }

  /** The first line of a text. */
  function FirstLine(text: string): string {
    Split(text, '\n')[0]
  }

  /** Text without a line feed in front of another text joins that text's
      first line. */
  lemma FirstLineAfter(h: string, c: string)
    requires '\n' !in h
    ensures FirstLine(h + c) == h + FirstLine(c)
  {
    if '\n' in c {
      var i := IndexOf(c, '\n');
      var p, q := c[..i], c[i + 1..];
      assert c == p + ['\n'] + q;
      SplitFirst(p, '\n', q);
      assert h + c == (h + p) + ['\n'] + q;
      SplitFirst(h + p, '\n', q);
    } else {
      assert '\n' !in h + c;
    }
  }

  /** A header that is one line ended by a line feed stays the file's first
      line, whatever rows follow it. */
  lemma HeaderIsFirstLine(header: string, rows: seq<string>)
    requires |header| >= 1 && header[|header| - 1] == '\n'
    requires '\n' !in header[..|header| - 1]
    ensures FirstLine(FileText(header, rows)) == header[..|header| - 1]
  {
    var h := header[..|header| - 1];
    assert FileText(header, rows) == h + ['\n'] + Concat(rows);
    SplitFirst(h, '\n', Concat(rows));
  }

  /** The first line of each of the four row logs is exactly its column
      names. */
  lemma HeadersAreFirstLines(rows: seq<string>)
    ensures FirstLine(FileText(SuccessHeader, rows)) == "recipient,amount,signature"
    ensures FirstLine(FileText(CanceledHeader, rows)) == "recipient,amount"
    ensures FirstLine(FileText(FailedHeader, rows)) == "recipient,amount,error"
    ensures FirstLine(FileText(UnconfirmedHeader, rows)) == "recipient,amount,error"
  {
    HeaderIsFirstLine(SuccessHeader, rows);
    HeaderIsFirstLine(CanceledHeader, rows);
    HeaderIsFirstLine(FailedHeader, rows);
    HeaderIsFirstLine(UnconfirmedHeader, rows);
  }

  /** With the header as written, the first unconfirmed row is glued onto
      the header line: the first line is the column names followed by the
      first line of that row. */
  lemma UnconfirmedHeaderMergesAsWritten(first: string, rest: string, more: seq<string>)
    requires '\n' !in first
    ensures FirstLine(FileText(UnconfirmedHeaderAsWritten, [first + "\n" + rest] + more))
         == UnconfirmedHeaderAsWritten + first
  {
    var h := UnconfirmedHeaderAsWritten + first;
    assert Concat([first + "\n" + rest] + more) == first + "\n" + rest + Concat(more);
    assert FileText(UnconfirmedHeaderAsWritten, [first + "\n" + rest] + more)
        == h + ['\n'] + (rest + Concat(more));
    SplitFirst(h, '\n', rest + Concat(more));
  }

  /** A concrete unconfirmed row shows the damage: the header line no
      longer reads as the column names. */
  lemma UnconfirmedHeaderExample()
    ensures FirstLine(FileText(UnconfirmedHeaderAsWritten, ["A,1,e\n"]))
         == "recipient,amount,errorA,1,e"
  {
    var first := "A,1,e";
    assert first + "\n" + "" == "A,1,e\n";
    assert ["A,1,e\n"] == [first + "\n" + ""] + [];
    UnconfirmedHeaderMergesAsWritten(first, "", []);
  }
}

=== FILE: results.dfy ===
/** Failure-carrying values used wherever the tools raise, exit or return
    a "not found" marker. */
module Results {

  /** A value that may be absent. */
  datatype Option<+T> = None | Some(value: T) {

    /** The carried value, or `default` when there is none. */
    function GetOr(default: T): T {
      match this
      case Some(v) => v
      case None => default
    }
  }

  /** Either a computed value or the error that stopped the computation. */
  datatype Result<+T, +E> = Ok(value: T) | Err(error: E)
}

=== FILE: seqs.dfy ===
/** Sequence helpers shared by both tools: first-occurrence search,
    order-preserving filtering and de-duplication, as Python's list
    comprehensions and `OrderedDict.fromkeys` perform them. */
module Seqs {

  /** No element occurs twice. */
  predicate Distinct<T(==)>(s: seq<T>) {
    forall i, j :: 0 <= i < j < |s| ==> s[i] != s[j]
  }

  /** Position of the first occurrence of `x` in `s`. */
  function IndexOf<T(==)>(s: seq<T>, x: T): (i: nat)
    requires x in s
    ensures i < |s| && s[i] == x
    ensures x !in s[..i]
  {
    if s[0] == x then 0
    else
      var j := IndexOf(s[1..], x);
      assert s[..j + 1] == [s[0]] + s[1..][..j];
      j + 1
  }

  /** The first occurrence is the only position without an earlier copy. */
  lemma IndexOfUnique<T>(s: seq<T>, x: T, i: nat)
    requires i < |s| && s[i] == x && x !in s[..i]
    ensures IndexOf(s, x) == i
  {
  }

  /** An element already present keeps its first position when more is appended. */
  lemma IndexOfAppend<T>(s: seq<T>, t: seq<T>, x: T)
    requires x in s
    ensures IndexOf(s + t, x) == IndexOf(s, x)
  {
    var i := IndexOf(s, x);
    assert (s + t)[..i] == s[..i];
    IndexOfUnique(s + t, x, i);
  }

  /** A distinct sequence without its head holds exactly the other elements. */
  lemma DistinctTail<T>(a: seq<T>)
    requires Distinct(a) && |a| > 0
    ensures Distinct(a[1..])
    ensures forall k :: k in a[1..] <==> k in a && k != a[0]
  {
    forall k | k in a[1..]
      ensures k != a[0]
    {
      var t :| 0 <= t < |a[1..]| && a[1..][t] == k;
      assert a[t + 1] == k;
    }
  }

  /** A distinct sequence without position `j` holds exactly the other
      elements, each still once. */
  lemma DistinctRemove<T>(b: seq<T>, j: nat)
    requires Distinct(b) && j < |b|
    ensures Distinct(b[..j] + b[j + 1..])
    ensures forall k :: k in b[..j] + b[j + 1..] <==> k in b && k != b[j]
  {
    var b' := b[..j] + b[j + 1..];
    assert |b'| == |b| - 1;
    assert forall t :: 0 <= t < |b'| ==> b'[t] == b[if t < j then t else t + 1];
    forall k | k in b && k != b[j]
      ensures k in b'
    {
      var u :| 0 <= u < |b| && b[u] == k;
      if u < j { assert b'[u] == k; } else { assert b'[u - 1] == k; }
    }
  }

  /** The elements of `s` that `keep` accepts, in their original order
      (a Python list comprehension with an `if`). */
  function Filter<T(==, !new)>(s: seq<T>, keep: T -> bool): (r: seq<T>)
    ensures |r| <= |s|
    ensures forall i :: 0 <= i < |r| ==> keep(r[i])
  {
    if |s| == 0 then []
    else
      var rest := Filter(s[1..], keep);
      if keep(s[0]) then [s[0]] + rest else rest
  }

  /** Filtering keeps every accepted element as often as it occurs, and no
      other element. */
  lemma {:induction false} FilterMultiset<T(!new)>(s: seq<T>, keep: T -> bool)
    ensures forall x :: multiset(Filter(s, keep))[x] == if keep(x) then multiset(s)[x] else 0
  {
    if |s| > 0 {
      FilterMultiset(s[1..], keep);
      assert s == [s[0]] + s[1..];
    }
  }

  /** Filtering one element in front. */
  lemma FilterCons<T(!new)>(x: T, s: seq<T>, keep: T -> bool)
    ensures Filter([x] + s, keep) == (if keep(x) then [x] else []) + Filter(s, keep)
  {
    assert ([x] + s)[1..] == s;
  }

  /** Filtering distributes over concatenation, so relative order is kept. */
  lemma {:induction false} FilterAppend<T(!new)>(a: seq<T>, b: seq<T>, keep: T -> bool)
    ensures Filter(a + b, keep) == Filter(a, keep) + Filter(b, keep)
  {
    if |a| == 0 {
      assert a + b == b;
    } else {
      assert (a + b)[1..] == a[1..] + b;
      FilterAppend(a[1..], b, keep);
    }
  }

  /** First occurrences of the elements of `s`, in the order they first
      appear (`list(OrderedDict.fromkeys(s))`). */
  function Dedup<T(==, !new)>(s: seq<T>): (r: seq<T>)
    ensures Distinct(r)
    ensures forall x :: x in r <==> x in s
    ensures |r| <= |s|
  {
    if |s| == 0 then []
    else
      var init := s[..|s| - 1];
      var d := Dedup(init);
      assert s == init + [s[|s| - 1]];
      if s[|s| - 1] in d then d else d + [s[|s| - 1]]
  }

  /** Dedup of a longer sequence: the new element is appended unless it
      already occurred. */
  lemma DedupSnoc<T(!new)>(s: seq<T>, x: T)
    ensures Dedup(s + [x]) == if x in Dedup(s) then Dedup(s) else Dedup(s) + [x]
  {
    assert (s + [x])[..|s|] == s;
  }

  /** A sequence without repeats is its own dedup. */
  lemma {:induction false} DedupDistinct<T(!new)>(s: seq<T>)
    requires Distinct(s)
    ensures Dedup(s) == s
  {
    if |s| > 0 {
      var n := |s| - 1;
      assert Distinct(s[..n]);
      DedupDistinct(s[..n]);
      assert s[n] !in s[..n];
      assert s == s[..n] + [s[n]];
    }
  }

  /** Dedup keeps first-occurrence order: an element that appears earlier in
      the result first appeared earlier in the input. */
  lemma {:induction false} DedupFirstOccurrenceOrder<T(!new)>(s: seq<T>)
    ensures forall i, j :: 0 <= i < j < |Dedup(s)| ==> IndexOf(s, Dedup(s)[i]) < IndexOf(s, Dedup(s)[j])
  {
    if |s| > 0 {
      var init := s[..|s| - 1];
      var x := s[|s| - 1];
      assert s == init + [x];
      DedupFirstOccurrenceOrder(init);
      var d := Dedup(init);
      forall y | y in d
        ensures IndexOf(s, y) == IndexOf(init, y)
      {
        IndexOfAppend(init, [x], y);
      }
      if x !in d {
        assert x !in init;
        IndexOfUnique(s, x, |s| - 1);
        forall i | 0 <= i < |d|
          ensures IndexOf(s, d[i]) < IndexOf(s, x)
        {
          assert d[i] in init;
        }
      }
    }
  }
}

=== FILE: session.dfy ===
/** The distribution session: the address list is loaded and allocated,
    then recipient by recipient the operator is asked (in interactive
    mode), the transfer is run until its outcome is final, and rows are
    appended to the transcript logs. Process results and operator answers
    are given up front as sequences; when one runs out the session stops,
    as the operator's interrupt would stop it. */
module Session {
  import opened Results
  import opened Text
  import opened Ledgers
  import opened AddressList
  import opened Allocation
  import opened TransferCommand
  import opened Signature
  import opened Classifier
  import opened LogFiles

  /** Thirty dashes and a line feed: the end of every detailed entry. */
  const LogSeparator := "------------------------------\n"

  /** Run-wide settings: token mint, its decimals, the RPC endpoint and the
      amount formatter. */
  datatype Config = Config(mint: string, decimals: nat, url: string, fmt: Formatter)

  /** The rows appended so far to the success, canceled, failed,
      unconfirmed and detailed logs, one element per append. */
  datatype Logs = Logs(
    success: seq<string>,
    canceled: seq<string>,
    failed: seq<string>,
    unconfirmed: seq<string>,
    detailed: seq<string>)

  const NoLogs := Logs([], [], [], [], [])

  /** Number of recipient rows (every log but the detailed one). */
  function Rows(l: Logs): nat {
    |l.success| + |l.canceled| + |l.failed| + |l.unconfirmed|
  }

  /** `b` is `a` with rows appended: every log of `a` is a prefix of the
      same log of `b`. */
  predicate AppendedTo(a: Logs, b: Logs) {
    && a.success <= b.success && a.canceled <= b.canceled && a.failed <= b.failed
    && a.unconfirmed <= b.unconfirmed && a.detailed <= b.detailed
  }

  lemma AppendedTrans(a: Logs, b: Logs, c: Logs)
    requires AppendedTo(a, b) && AppendedTo(b, c)
    ensures AppendedTo(a, c)
  {
  }

  /** The recipient rows `b` holds beyond `a`, log by log. */
  function NewRows(a: Logs, b: Logs): seq<string>
    requires AppendedTo(a, b)
  {
    b.success[|a.success|..] + b.canceled[|a.canceled|..] + b.failed[|a.failed|..] + b.unconfirmed[|a.unconfirmed|..]
  }

  /** The four logs that take one row per recipient. */
  datatype RowLog = SuccessLog | CanceledLog | FailedLog | UnconfirmedLog

  /** `b` is `a` with one recipient row appended, which starts with
      `field`, and with possibly more detailed entries. */
  predicate Recorded(a: Logs, b: Logs, field: string) {
    && AppendedTo(a, b) && Rows(b) == Rows(a) + 1
    && |NewRows(a, b)| == 1 && field <= NewRows(a, b)[0]
  }

  /** The session between two recipients: the mode, the logs, the process
      results and answers not yet consumed, the number of runs so far, the
      recipients the operator has been asked about, the recipients handled
      so far and the recipient rows written so far, across the four row
      logs, both in the order they were handled. */
  datatype State = State(
    interactive: bool,
    logs: Logs,
    results: seq<ProcResult>,
    answers: seq<string>,
    runs: nat,
    prompted: seq<string>,
    done: seq<string>,
    written: seq<string>)

  /** One recipient's record: the row `field + rest` for recipient `d`
      appended to log `k`, and `entries` (the detailed entry, or nothing)
      to the detailed log. */
  function AddRow(s: State, k: RowLog, d: Drop, field: string, rest: string, entries: seq<string>): (t: State)
    ensures Recorded(s.logs, t.logs, field) && NewRows(s.logs, t.logs) == [field + rest]
    ensures t.done == s.done + [d.recipient] && t.written == s.written + [field + rest]
    ensures t.logs.detailed == s.logs.detailed + entries
    ensures (t.logs.success == s.logs.success <==> !k.SuccessLog?) && (t.logs.canceled == s.logs.canceled <==> !k.CanceledLog?)
    ensures (t.logs.failed == s.logs.failed <==> !k.FailedLog?) && (t.logs.unconfirmed == s.logs.unconfirmed <==> !k.UnconfirmedLog?)
    ensures t.(logs := s.logs, done := s.done, written := s.written) == s
  {
    var row := field + rest;
    assert row[..|field|] == field;
    var l := s.logs;
    var l' := match k
      case SuccessLog => l.(success := l.success + [row], detailed := l.detailed + entries)
      case CanceledLog => l.(canceled := l.canceled + [row], detailed := l.detailed + entries)
      case FailedLog => l.(failed := l.failed + [row], detailed := l.detailed + entries)
      case UnconfirmedLog => l.(unconfirmed := l.unconfirmed + [row], detailed := l.detailed + entries);
    s.(logs := l', done := s.done + [d.recipient], written := s.written + [row])
  }

  /** Why a session ended. */
  datatype Halt =
    | Finished
    | BadInput(e: LoadError)
    | ZeroTotalBalance
    | NoSignatureLine
    | StillRetrying
    | NoAnswer

  datatype Step = Next(state: State) | Stop(state: State, why: Halt)

  /** `b` is what remains of `a` after dropping some of its front. */
  predicate Suffix<T(==)>(a: seq<T>, b: seq<T>) {
    |b| <= |a| && a[|a| - |b|..] == b
  }

  lemma SuffixTrans<T>(a: seq<T>, b: seq<T>, c: seq<T>)
    requires Suffix(a, b) && Suffix(b, c)
    ensures Suffix(a, c)
  {
    assert a[|a| - |c|..] == a[|a| - |b|..][|b| - |c|..];
  }

  /** `t` is a later state of the same session than `s`: process results
      and answers are only ever consumed from the front, each consumed
      result counts as one run and each consumed answer as one prompt, and
      once non-interactive the session neither prompts nor turns back. */
  predicate Advances(s: State, t: State) {
    && Suffix(s.results, t.results) && t.runs == s.runs + |s.results| - |t.results|
    && Suffix(s.answers, t.answers)
    && |t.prompted| == |s.prompted| + |s.answers| - |t.answers|
    && (!s.interactive ==> t.answers == s.answers && t.prompted == s.prompted && !t.interactive)
    && (t.interactive ==> s.interactive)
  }

  lemma AdvancesTrans(s: State, t: State, u: State)
    requires Advances(s, t) && Advances(t, u)
    ensures Advances(s, u)
  {
    SuffixTrans(s.results, t.results, u.results);
    SuffixTrans(s.answers, t.answers, u.answers);
  }

  /** The operator's answer to a transfer prompt as (confirm, switch to
      non-interactive): an empty line confirms, `ALL` switches, anything
      else cancels. */
  function PromptAnswer(choice: string): (r: (bool, bool))
    ensures !(r.0 && r.1)
    ensures r.0 <==> choice == ""
    ensures r.1 <==> choice == "ALL"
  {
    if choice == "" then (true, false)
    else if choice == "ALL" then (false, true)
    else (false, false)
  }

  /** The transfer for one drop: no extra flags. */
  function Command(cfg: Config, d: Drop): TransferCmd {
    NewTransferCmd("spl-token", "transfer", cfg.mint, cfg.decimals, d.amount, d.recipient, cfg.url, None)
  }

  /** The first line of a detailed entry: the 1-based position and the
      printed command. */
  function Entry(cfg: Config, i: nat, d: Drop): string {
    NatToString(i + 1) + ". Cmdline: " + ToStr(Command(cfg, d), cfg.fmt) + "\n"
  }

  /** The leading fields of a row: the recipient and the raw amount with
      six fractional digits. */
  function Field(cfg: Config, d: Drop): string {
    d.recipient + "," + cfg.fmt(d.amount, 6)
  }

  /** Records the final run `a.last` of recipient `d`, after the runs of
      `a.retried`: a success row with the parsed signature, an unconfirmed
      row with the raw error, or a failed row with the error summary. In
      the prompted branch an unconfirmed outcome leaves the detailed log
      alone. */
  function Record(cfg: Config, s: State, i: nat, d: Drop, prompted: bool, a: Attempts): (r: Step)
    ensures r.Next? ==> Recorded(s.logs, r.state.logs, Field(cfg, d)) && r.state.logs.canceled == s.logs.canceled
    ensures r.Next? ==> r.state.done == s.done + [d.recipient] && r.state.written == s.written + NewRows(s.logs, r.state.logs)
    ensures r.Stop? ==> r.state == s && r.why == NoSignatureLine
    ensures r.state.(logs := s.logs, done := s.done, written := s.written) == s
  {
    var detail := Entry(cfg, i, d) + Concat(a.retried) + a.last.out + a.last.err + LogSeparator;
    match a.outcome
    case Delivered =>
      (match ParseSig(a.last.out)
       case None => Stop(s, NoSignatureLine)
       case Some(sig) => Next(AddRow(s, SuccessLog, d, Field(cfg, d), "," + sig + "\n", [detail])))
    case NotConfirmed =>
      Next(AddRow(s, UnconfirmedLog, d, Field(cfg, d), "," + a.last.err, if prompted then [] else [detail]))
    case Rejected(summary) =>
      Next(AddRow(s, FailedLog, d, Field(cfg, d), "," + summary, [detail]))
  }

  /** Runs the transfer until its outcome is final and records it. */
  function Deliver(cfg: Config, s: State, i: nat, d: Drop, prompted: bool): (r: Step)
    ensures r.Next? ==> Recorded(s.logs, r.state.logs, Field(cfg, d)) && r.state.logs.canceled == s.logs.canceled
    ensures r.Next? ==> r.state.done == s.done + [d.recipient] && RunUntilFinal(s.results).Some?
    ensures r.Next? ==> r.state.written == s.written + NewRows(s.logs, r.state.logs)
    ensures r.Stop? ==> r.state.logs == s.logs && r.state.done == s.done && r.state.written == s.written
    ensures r.Stop? ==> r.why in {NoSignatureLine, StillRetrying}
    ensures Suffix(s.results, r.state.results) && r.state.runs == s.runs + |s.results| - |r.state.results|
    ensures r.Next? ==> r.state.runs > s.runs
    ensures r.state.(logs := s.logs, results := s.results, runs := s.runs, done := s.done, written := s.written) == s
  {
    match RunUntilFinal(s.results)
    case None => Stop(s.(results := [], runs := s.runs + |s.results|), StillRetrying)
    case Some(a) => Record(cfg, s.(results := s.results[a.runs..], runs := s.runs + a.runs), i, d, prompted, a)
  }

  /** One recipient, the `i`-th (from 0) of the run. */
  function StepAt(cfg: Config, s: State, i: nat, d: Drop): (r: Step)
    ensures r.Next? ==> Recorded(s.logs, r.state.logs, Field(cfg, d))
    ensures r.Next? ==> r.state.done == s.done + [d.recipient]
    ensures r.Next? ==> r.state.written == s.written + NewRows(s.logs, r.state.logs)
    ensures r.Stop? ==> r.state.logs == s.logs && r.state.done == s.done && r.state.written == s.written
    ensures r.Stop? ==> r.why in {NoSignatureLine, StillRetrying, NoAnswer}
    ensures Advances(s, r.state)
    ensures r.state.prompted[..|s.prompted|] == s.prompted
  {
    if !s.interactive then Deliver(cfg, s, i, d, false)
    else if |s.answers| == 0 then Stop(s, NoAnswer)
    else
      var (confirm0, switch) := PromptAnswer(s.answers[0]);
      var confirm := if switch then true else confirm0;
      var s1 := s.(answers := s.answers[1..], prompted := s.prompted + [d.recipient],
                   interactive := !switch);
      if confirm then Deliver(cfg, s1, i, d, true) else Cancel(cfg, s1, i, d)
  }

  /** The operator declines recipient `d`: a canceled row and a `Cancel:`
      entry, and no run. */
  function Cancel(cfg: Config, s: State, i: nat, d: Drop): (r: Step)
    ensures r.Next? && Recorded(s.logs, r.state.logs, Field(cfg, d))
    ensures r.state.logs.canceled == s.logs.canceled + [Field(cfg, d) + "\n"]
    ensures r.state.logs.detailed == s.logs.detailed + [Entry(cfg, i, d) + "Cancel: " + Field(cfg, d) + "\n" + LogSeparator]
    ensures r.state == s.(logs := r.state.logs, done := s.done + [d.recipient], written := s.written + [Field(cfg, d) + "\n"])
  {
    Next(AddRow(s, CanceledLog, d, Field(cfg, d), "\n",
                [Entry(cfg, i, d) + "Cancel: " + Field(cfg, d) + "\n" + LogSeparator]))
  }

  /** How a session ended: the final state, the number of recipients fully
      handled and the reason it stopped. */
  datatype Outcome = Outcome(state: State, handled: nat, halt: Halt)

  /** The session over the drops, the first of which is recipient `i`. */
  function Drive(cfg: Config, drops: seq<Drop>, i: nat, s: State): (o: Outcome)
    ensures o.handled <= |drops|
    ensures o.halt == Finished <==> o.handled == |drops|
    ensures o.halt in {Finished, NoSignatureLine, StillRetrying, NoAnswer}
    ensures Rows(o.state.logs) == Rows(s.logs) + o.handled
    ensures AppendedTo(s.logs, o.state.logs)
    ensures o.state.done == s.done + Recipients(drops[..o.handled])
    ensures s.written <= o.state.written
    ensures FieldsLead(cfg, drops[..o.handled], o.state.written[|s.written|..])
    ensures multiset(o.state.written[|s.written|..]) == multiset(NewRows(s.logs, o.state.logs))
    decreases |drops|, 2
  {
    if |drops| == 0 then
      Unmoved(cfg, s, s, drops);
      Outcome(s, 0, Finished)
    else DriveFirst(cfg, drops, i, s)
  }

  /** What `Drive` promises about outcome `o` of the drops from state `s`. */
  predicate Driven(cfg: Config, drops: seq<Drop>, s: State, o: Outcome) {
    && o.handled <= |drops|
    && (o.halt == Finished <==> o.handled == |drops|)
    && o.halt in {Finished, NoSignatureLine, StillRetrying, NoAnswer}
    && Rows(o.state.logs) == Rows(s.logs) + o.handled
    && AppendedTo(s.logs, o.state.logs)
    && o.state.done == s.done + Recipients(drops[..o.handled])
    && s.written <= o.state.written
    && FieldsLead(cfg, drops[..o.handled], o.state.written[|s.written|..])
    && multiset(o.state.written[|s.written|..]) == multiset(NewRows(s.logs, o.state.logs))
  }

  /** Row `k` of `rows` starts with the recipient and amount of drop `k`,
      for every drop. */
  predicate FieldsLead(cfg: Config, drops: seq<Drop>, rows: seq<string>) {
    |rows| == |drops| && forall k :: 0 <= k < |drops| ==> Field(cfg, drops[k]) <= rows[k]
  }

  /** The session from its first drop on. */
  function DriveFirst(cfg: Config, drops: seq<Drop>, i: nat, s: State): (o: Outcome)
    requires |drops| > 0
    ensures Driven(cfg, drops, s, o)
    decreases |drops|, 1
  {
    Continue(cfg, drops, i, s, StepAt(cfg, s, i, drops[0]))
  }

  /** What `StepAt` promises about step `r` for drop `d` from state `s`. */
  predicate StepTaken(cfg: Config, s: State, d: Drop, r: Step) {
    && (r.Next? ==> Recorded(s.logs, r.state.logs, Field(cfg, d)) && r.state.done == s.done + [d.recipient])
    && (r.Next? ==> r.state.written == s.written + NewRows(s.logs, r.state.logs))
    && (r.Stop? ==> r.state.logs == s.logs && r.state.done == s.done && r.state.written == s.written)
    && (r.Stop? ==> r.why in {NoSignatureLine, StillRetrying, NoAnswer})
  }

  /** The session after step `r` for the first drop: stopped, or driven
      over the rest. */
  function Continue(cfg: Config, drops: seq<Drop>, i: nat, s: State, r: Step): (o: Outcome)
    requires |drops| > 0 && StepTaken(cfg, s, drops[0], r)
    ensures Driven(cfg, drops, s, o)
    decreases |drops|, 0
  {
    if r.Stop? then
      Unmoved(cfg, s, r.state, drops);
      Outcome(r.state, 0, r.why)
    else
      var t := r.state;
      var o := Drive(cfg, drops[1..], i + 1, t);
      DriveStep(cfg, s, t, drops, o.handled, o.state);
      o.(handled := o.handled + 1)
  }

  /** One handled drop, `t` after `s`, in front of the session `after`
      over the rest that handled `h` more. */
  lemma DriveStep(cfg: Config, s: State, t: State, drops: seq<Drop>, h: nat, after: State)
    requires h < |drops|
    requires Recorded(s.logs, t.logs, Field(cfg, drops[0]))
    requires t.done == s.done + [drops[0].recipient] && t.written == s.written + NewRows(s.logs, t.logs)
    requires AppendedTo(t.logs, after.logs) && Rows(after.logs) == Rows(t.logs) + h
    requires after.done == t.done + Recipients(drops[1..][..h])
    requires t.written <= after.written
    requires FieldsLead(cfg, drops[1..][..h], after.written[|t.written|..])
    requires multiset(after.written[|t.written|..]) == multiset(NewRows(t.logs, after.logs))
    ensures AppendedTo(s.logs, after.logs) && Rows(after.logs) == Rows(s.logs) + h + 1
    ensures after.done == s.done + Recipients(drops[..h + 1])
    ensures s.written <= after.written
    ensures FieldsLead(cfg, drops[..h + 1], after.written[|s.written|..])
    ensures multiset(after.written[|s.written|..]) == multiset(NewRows(s.logs, after.logs))
  {
    AppendedTrans(s.logs, t.logs, after.logs);
    DoneFront(s.done, drops, h, t.done, after.done);
    var row := NewRows(s.logs, t.logs)[0];
    assert NewRows(s.logs, t.logs) == [row];
    var rest := after.written[|t.written|..];
    assert after.written[|s.written|..] == [row] + rest;
    FieldsFront(cfg, drops, h, row, rest);
    NewRowsTrans(s.logs, t.logs, after.logs);
  }

  /** A drop's row in front of the rows of the next `h` drops. */
  lemma FieldsFront(cfg: Config, drops: seq<Drop>, h: nat, row: string, rest: seq<string>)
    requires h < |drops|
    requires Field(cfg, drops[0]) <= row && FieldsLead(cfg, drops[1..][..h], rest)
    ensures FieldsLead(cfg, drops[..h + 1], [row] + rest)
  {
    forall k | 0 <= k < h + 1
      ensures Field(cfg, drops[..h + 1][k]) <= ([row] + rest)[k]
    {
      if k > 0 {
        assert drops[..h + 1][k] == drops[1..][..h][k - 1];
      }
    }
  }

  /** The rows appended over two stretches are, together, the rows appended
      over both, though grouped log by log. */
  lemma NewRowsTrans(a: Logs, b: Logs, c: Logs)
    requires AppendedTo(a, b) && AppendedTo(b, c)
    ensures AppendedTo(a, c)
    ensures multiset(NewRows(a, c)) == multiset(NewRows(a, b)) + multiset(NewRows(b, c))
  {
    assert c.success[|a.success|..] == b.success[|a.success|..] + c.success[|b.success|..];
    assert c.canceled[|a.canceled|..] == b.canceled[|a.canceled|..] + c.canceled[|b.canceled|..];
    assert c.failed[|a.failed|..] == b.failed[|a.failed|..] + c.failed[|b.failed|..];
    assert c.unconfirmed[|a.unconfirmed|..] == b.unconfirmed[|a.unconfirmed|..] + c.unconfirmed[|b.unconfirmed|..];
  }

  /** A session that stops before handling a drop keeps its logs and traces. */
  lemma Unmoved(cfg: Config, s: State, t: State, drops: seq<Drop>)
    requires t.logs == s.logs && t.done == s.done && t.written == s.written
    ensures AppendedTo(s.logs, t.logs) && Rows(t.logs) == Rows(s.logs)
    ensures t.done == s.done + Recipients(drops[..0])
    ensures s.written <= t.written && FieldsLead(cfg, drops[..0], t.written[|s.written|..])
    ensures multiset(t.written[|s.written|..]) == multiset(NewRows(s.logs, t.logs))
  {
    assert Recipients(drops[..0]) == [];
    assert NewRows(s.logs, t.logs) == [];
    assert t.written[|s.written|..] == [];
  }

  /** The recipients of some drops, in order. */
  function Recipients(drops: seq<Drop>): seq<string> {
    seq(|drops|, j requires 0 <= j < |drops| => drops[j].recipient)
  }

  /** One handled drop in front of the rest extends the trace of handled
      recipients by the recipients of the first `h + 1` drops. */
  lemma DoneFront(before: seq<string>, drops: seq<Drop>, h: nat, mid: seq<string>, after: seq<string>)
    requires h < |drops|
    requires mid == before + [drops[0].recipient] && after == mid + Recipients(drops[1..][..h])
    ensures after == before + Recipients(drops[..h + 1])
  {
    assert drops[1..][..h] == drops[1..h + 1];
    assert Recipients(drops[..h + 1]) == [drops[0].recipient] + Recipients(drops[1..][..h]);
  }

  /** A session only moves forward: see `Advances`. */
  lemma {:induction false} DriveAdvances(cfg: Config, drops: seq<Drop>, i: nat, s: State)
    ensures Advances(s, Drive(cfg, drops, i, s).state)
    decreases |drops|
  {
    if |drops| > 0 {
      var r := StepAt(cfg, s, i, drops[0]);
      assert Drive(cfg, drops, i, s) == DriveFirst(cfg, drops, i, s) == Continue(cfg, drops, i, s, r);
      if r.Next? {
        DriveAdvances(cfg, drops[1..], i + 1, r.state);
        AdvancesTrans(s, r.state, Drive(cfg, drops, i, s).state);
      }
    }
  }

  /** The operator lets the transfer run: non-interactive mode, or an
      answer that confirms or switches. */
  predicate Confirmed(s: State) {
    !s.interactive || (|s.answers| > 0 && s.answers[0] in {"", "ALL"})
  }

  /** A cancel runs nothing and consumes no process result; it appends one
      canceled row and one `Cancel:` entry to the detailed log, and leaves
      the other logs alone. */
  lemma CancelRunsNothing(cfg: Config, s: State, i: nat, d: Drop)
    requires s.interactive && |s.answers| > 0 && s.answers[0] != "" && s.answers[0] != "ALL"
    ensures var r := StepAt(cfg, s, i, d);
      && r.Next?
      && r.state.results == s.results && r.state.runs == s.runs
      && r.state.interactive
      && r.state.logs == s.logs.(canceled := s.logs.canceled + [Field(cfg, d) + "\n"],
           detailed := s.logs.detailed + [Entry(cfg, i, d) + "Cancel: " + Field(cfg, d) + "\n" + LogSeparator])
  {
  }

  /** A confirmed recipient whose transfer reaches a final outcome adds
      exactly one row, to exactly one of the success, unconfirmed and
      failed logs, after running the command once more than the number of
      leading transient results. */
  lemma ConfirmedOneRow(cfg: Config, s: State, i: nat, d: Drop)
    requires Confirmed(s)
    requires StepAt(cfg, s, i, d).Next?
    ensures var t := StepAt(cfg, s, i, d).state;
      && t.logs.canceled == s.logs.canceled
      && ((|t.logs.success| == |s.logs.success| + 1 && t.logs.success[..|s.logs.success|] == s.logs.success
           && t.logs.failed == s.logs.failed && t.logs.unconfirmed == s.logs.unconfirmed)
       || (|t.logs.failed| == |s.logs.failed| + 1 && t.logs.failed[..|s.logs.failed|] == s.logs.failed
           && t.logs.success == s.logs.success && t.logs.unconfirmed == s.logs.unconfirmed)
       || (|t.logs.unconfirmed| == |s.logs.unconfirmed| + 1 && t.logs.unconfirmed[..|s.logs.unconfirmed|] == s.logs.unconfirmed
           && t.logs.success == s.logs.success && t.logs.failed == s.logs.failed))
      && t.runs == s.runs + 1 + LeadingTransients(s.results)
  {
    ConfirmedDelivers(cfg, s, i, d);
    DeliverOneRow(cfg, Answered(s, d), i, d, s.interactive);
  }

  /** The delivery half of `ConfirmedOneRow`. */
  lemma DeliverOneRow(cfg: Config, s: State, i: nat, d: Drop, prompted: bool)
    requires Deliver(cfg, s, i, d, prompted).Next?
    ensures var t := Deliver(cfg, s, i, d, prompted).state;
      && ((|t.logs.success| == |s.logs.success| + 1 && t.logs.success[..|s.logs.success|] == s.logs.success
           && t.logs.failed == s.logs.failed && t.logs.unconfirmed == s.logs.unconfirmed)
       || (|t.logs.failed| == |s.logs.failed| + 1 && t.logs.failed[..|s.logs.failed|] == s.logs.failed
           && t.logs.success == s.logs.success && t.logs.unconfirmed == s.logs.unconfirmed)
       || (|t.logs.unconfirmed| == |s.logs.unconfirmed| + 1 && t.logs.unconfirmed[..|s.logs.unconfirmed|] == s.logs.unconfirmed
           && t.logs.success == s.logs.success && t.logs.failed == s.logs.failed))
      && t.runs == s.runs + 1 + LeadingTransients(s.results)
  {
    var a := RunUntilFinal(s.results);
    assert a.Some?;
    RunCount(s.results);
  }

  /** A reply of `ALL` is final: the recipient at hand is run, and no later
      recipient is prompted or consumes an answer. */
  lemma SwitchIsOneWay(cfg: Config, drops: seq<Drop>, i: nat, s: State)
    requires s.interactive && |drops| > 0 && |s.answers| > 0 && s.answers[0] == "ALL"
    ensures var o := Drive(cfg, drops, i, s);
      o.state.answers == s.answers[1..] && o.state.prompted == s.prompted + [drops[0].recipient]
      && !o.state.interactive
  {
    var r := StepAt(cfg, s, i, drops[0]);
    assert Drive(cfg, drops, i, s) == DriveFirst(cfg, drops, i, s) == Continue(cfg, drops, i, s, r);
    assert !r.state.interactive && r.state.answers == s.answers[1..];
    assert r.state.prompted == s.prompted + [drops[0].recipient];
    if r.Next? {
      DriveAdvances(cfg, drops[1..], i + 1, r.state);
    }
  }

  /** The state in which a confirmed recipient's transfer starts: its
      answer, if a prompt was shown, is consumed, and `ALL` ends prompting. */
  function Answered(s: State, d: Drop): State
    requires Confirmed(s)
  {
    if s.interactive then
      s.(answers := s.answers[1..], prompted := s.prompted + [d.recipient], interactive := s.answers[0] != "ALL")
    else s
  }

  /** A confirmed recipient is delivered from the answered state. */
  lemma ConfirmedDelivers(cfg: Config, s: State, i: nat, d: Drop)
    requires Confirmed(s)
    ensures StepAt(cfg, s, i, d) == Deliver(cfg, Answered(s, d), i, d, s.interactive)
    ensures Answered(s, d).results == s.results && Answered(s, d).logs == s.logs
  {
  }

  /** The row a delivery appends, after the retried runs, read off the run
      that decided it: exit 0 gives a success row with the parsed signature
      (and no row at all when the output has no line to parse); the
      unconfirmed marker gives an unconfirmed row with the raw error
      stream, detailed only when no prompt was shown; any other error gives
      a failed row with the error summary. The detailed entry holds the
      error streams of the retried runs, then the deciding run's output and
      error stream. */
  lemma DeliverLogged(cfg: Config, s: State, i: nat, d: Drop, prompted: bool)
    requires RunUntilFinal(s.results).Some?
    ensures var a := RunUntilFinal(s.results).value;
      var r := Deliver(cfg, s, i, d, prompted);
      && r.state.results == s.results[a.runs..] && r.state.runs == s.runs + a.runs
      && Logged(cfg, s.logs, i, d, prompted, a, r)
  {
    var a := RunUntilFinal(s.results).value;
    RecordLogged(cfg, s.(results := s.results[a.runs..], runs := s.runs + a.runs), i, d, prompted, a);
  }

  /** The logs after recording `a` for recipient `d`, read off the run
      that decided it (see `DeliverLogged`). */
  predicate Logged(cfg: Config, l: Logs, i: nat, d: Drop, prompted: bool, a: Attempts, r: Step) {
    var detail := Entry(cfg, i, d) + Concat(a.retried) + a.last.out + a.last.err + LogSeparator;
    && (r.Next? <==> a.last.code != 0 || ParseSig(a.last.out).Some?)
    && (r.Next? && a.last.code == 0 ==>
          r.state.logs == l.(success := l.success + [Field(cfg, d) + ("," + ParseSig(a.last.out).value + "\n")],
                             detailed := l.detailed + [detail]))
    && (a.last.code != 0 && Contains(a.last.err, NotConfirmedMarker) ==>
          r.state.logs == l.(unconfirmed := l.unconfirmed + [Field(cfg, d) + ("," + a.last.err)],
                             detailed := if prompted then l.detailed else l.detailed + [detail]))
    && (a.last.code != 0 && !Contains(a.last.err, NotConfirmedMarker) ==>
          r.state.logs == l.(failed := l.failed + [Field(cfg, d) + ("," + ErrorSummary(a.last.err))],
                             detailed := l.detailed + [detail]))
  }

  /** `Record` appends the row `Logged` describes. */
  lemma RecordLogged(cfg: Config, s: State, i: nat, d: Drop, prompted: bool, a: Attempts)
    requires Classify(a.last) == Final(a.outcome)
    ensures Logged(cfg, s.logs, i, d, prompted, a, Record(cfg, s, i, d, prompted, a))
  {
  }

  /** A transfer confirmed by `Signature: <id>` as the last output line is
      logged as a success row carrying that identifier. */
  lemma DeliveredRow(cfg: Config, s: State, i: nat, d: Drop, earlier: string, id: string, err: string)
    requires Confirmed(s)
    requires earlier == "" || earlier[|earlier| - 1] == '\n'
    requires id != "" && forall k :: 0 <= k < |id| ==> IsAlnum(id[k])
    requires |s.results| > 0 && s.results[0] == ProcResult(0, earlier + SignaturePrefix + id + "\n", err)
    ensures var r := StepAt(cfg, s, i, d);
      && r.Next?
      && r.state.logs.success == s.logs.success + [Field(cfg, d) + "," + id + "\n"]
      && r.state.results == s.results[1..] && r.state.runs == s.runs + 1
  {
    var s1 := Answered(s, d);
    ConfirmedDelivers(cfg, s, i, d);
    ParseSigOfConfirmation(earlier, id);
    FirstRunLogged(cfg, s1, i, d, s.interactive);
    RowText(Field(cfg, d), ",", id, "\n");
  }

  /** A recipient whose first result is final is recorded after one run,
      with no retried runs in its detailed entry. */
  lemma FirstRunLogged(cfg: Config, s: State, i: nat, d: Drop, prompted: bool)
    requires |s.results| > 0 && Classify(s.results[0]).Final?
    ensures var r := Deliver(cfg, s, i, d, prompted);
      && Logged(cfg, s.logs, i, d, prompted, Attempts(Classify(s.results[0]).outcome, s.results[0], [], 1), r)
      && r.state.results == s.results[1..] && r.state.runs == s.runs + 1
  {
    FirstRunDecides(s.results);
    DeliverLogged(cfg, s, i, d, prompted);
  }

  /** A final first result decides the recipient after one run. */
  lemma FirstRunDecides(rs: seq<ProcResult>)
    requires |rs| > 0 && Classify(rs[0]).Final?
    ensures RunUntilFinal(rs) == Some(Attempts(Classify(rs[0]).outcome, rs[0], [], 1))
  {
  }

  /** A failure without a retry marker or the unconfirmed marker is logged
      with the comma-free first line of its error stream. */
  lemma RejectedRow(cfg: Config, s: State, i: nat, d: Drop)
    requires Confirmed(s)
    requires |s.results| > 0 && Classify(s.results[0]).Final? && Classify(s.results[0]).outcome.Rejected?
    ensures var r := StepAt(cfg, s, i, d);
      && r.Next?
      && r.state.logs.failed == s.logs.failed + [Field(cfg, d) + "," + ErrorSummary(s.results[0].err)]
      && r.state.logs.detailed == s.logs.detailed
           + [Entry(cfg, i, d) + s.results[0].out + s.results[0].err + LogSeparator]
  {
    var s1 := Answered(s, d);
    ConfirmedDelivers(cfg, s, i, d);
    FirstRunLogged(cfg, s1, i, d, s.interactive);
    RejectedLogged(cfg, s.logs, i, d, s.interactive, s.results[0], StepAt(cfg, s, i, d));
  }

  /** The rows `Logged` describes for a rejected first run. */
  lemma RejectedLogged(cfg: Config, l: Logs, i: nat, d: Drop, prompted: bool, r0: ProcResult, r: Step)
    requires Classify(r0).Final? && Classify(r0).outcome.Rejected?
    requires Logged(cfg, l, i, d, prompted, Attempts(Classify(r0).outcome, r0, [], 1), r)
    ensures r.Next?
    ensures r.state.logs.failed == l.failed + [Field(cfg, d) + "," + ErrorSummary(r0.err)]
    ensures r.state.logs.detailed == l.detailed + [Entry(cfg, i, d) + r0.out + r0.err + LogSeparator]
  {
    RowText(Field(cfg, d), ",", ErrorSummary(r0.err), "");
    var e := Entry(cfg, i, d);
    assert e + Concat([]) + r0.out == e + r0.out;
  }

  /** An unconfirmed transfer is logged with its raw error stream; the
      detailed log records it only when no prompt was shown for it. */
  lemma UnconfirmedRow(cfg: Config, s: State, i: nat, d: Drop)
    requires Confirmed(s)
    requires |s.results| > 0 && Classify(s.results[0]) == Final(NotConfirmed)
    ensures var r := StepAt(cfg, s, i, d);
      && r.Next?
      && r.state.logs.unconfirmed == s.logs.unconfirmed + [Field(cfg, d) + "," + s.results[0].err]
      && (r.state.logs.detailed == s.logs.detailed <==> s.interactive)
  {
    var s1 := Answered(s, d);
    ConfirmedDelivers(cfg, s, i, d);
    FirstRunLogged(cfg, s1, i, d, s.interactive);
    RowText(Field(cfg, d), ",", s.results[0].err, "");
  }

  /** A row is its field, a comma and the rest, however grouped. */
  lemma RowText(field: string, comma: string, rest: string, tail: string)
    ensures field + (comma + rest) == field + comma + rest
    ensures field + (comma + rest + tail) == field + comma + rest + tail
  {
  }

  /** A whole `transfer` run: load the address list, allocate the total
      proportionally, and drive the session over the drops in list order. */
  function Transfer(cfg: Config, lines: seq<string>, parse: string -> Option<real>, total: real,
                    interactive: bool, results: seq<ProcResult>, answers: seq<string>): (o: Outcome)
    ensures o.halt.BadInput? <==> Load(lines, parse).Err?
    ensures o.halt.BadInput? ==> o.halt.e == Load(lines, parse).error
    ensures o.halt == ZeroTotalBalance <==> Load(lines, parse).Ok? && Total(Load(lines, parse).value) == 0.0
    ensures o.halt == Finished ==> Load(lines, parse).Ok? && o.handled == |Load(lines, parse).value.order|
    ensures Rows(o.state.logs) == o.handled
    ensures o.state.runs + |o.state.results| == |results|
    ensures Load(lines, parse).Ok? ==>
      o.handled <= |Load(lines, parse).value.order| && o.state.done == Load(lines, parse).value.order[..o.handled]
    ensures |o.state.written| == o.handled
    ensures multiset(o.state.written) == multiset(NewRows(NoLogs, o.state.logs))
    ensures Load(lines, parse).Ok? ==> forall k :: 0 <= k < o.handled ==>
      Load(lines, parse).value.order[k] + "," <= o.state.written[k]
  {
    var s := State(interactive, NoLogs, results, answers, 0, [], [], []);
    match Load(lines, parse)
    case Err(e) => Outcome(s, 0, BadInput(e))
    case Ok(l) =>
      if Total(l) == 0.0 then Outcome(s, 0, ZeroTotalBalance)
      else Distribute(cfg, l, total, s)
  }

  /** The session over the drops of ledger `l`, from a fresh state. */
  function Distribute(cfg: Config, l: Ledger, total: real, s: State): (o: Outcome)
    requires l.Valid() && Total(l) != 0.0
    requires s.logs == NoLogs && s.runs == 0 && s.done == [] && s.written == []
    ensures o.halt in {Finished, NoSignatureLine, StillRetrying, NoAnswer}
    ensures o.halt == Finished <==> o.handled == |l.order|
    ensures o.handled <= |l.order| && o.state.done == l.order[..o.handled]
    ensures Rows(o.state.logs) == o.handled && |o.state.written| == o.handled
    ensures o.state.runs + |o.state.results| == |s.results|
    ensures multiset(o.state.written) == multiset(NewRows(NoLogs, o.state.logs))
    ensures forall k :: 0 <= k < o.handled ==> l.order[k] + "," <= o.state.written[k]
  {
    var drops := Allocate(l, total);
    DriveAdvances(cfg, drops, 0, s);
    var o := Drive(cfg, drops, 0, s);
    DrivenOverOrder(cfg, l.order, drops, s, o);
    o
  }

  /** What a session driven over drops for `order`, from a fresh state,
      says in terms of `order`. */
  lemma DrivenOverOrder(cfg: Config, order: seq<string>, drops: seq<Drop>, s: State, o: Outcome)
    requires |drops| == |order| && forall k :: 0 <= k < |drops| ==> drops[k].recipient == order[k]
    requires s.logs == NoLogs && s.done == [] && s.written == []
    requires Driven(cfg, drops, s, o)
    ensures o.handled <= |order| && o.state.done == order[..o.handled]
    ensures Rows(o.state.logs) == o.handled && |o.state.written| == o.handled
    ensures multiset(o.state.written) == multiset(NewRows(NoLogs, o.state.logs))
    ensures forall k :: 0 <= k < o.handled ==> order[k] + "," <= o.state.written[k]
  {
    var h := o.handled;
    assert o.state.written[|s.written|..] == o.state.written;
    assert Recipients(drops[..h]) == order[..h];
    forall k | 0 <= k < h
      ensures order[k] + "," <= o.state.written[k]
    {
      var d := drops[..h][k];
      assert Field(cfg, d) <= o.state.written[k];
      assert Field(cfg, d)[..|d.recipient| + 1] == d.recipient + ",";
    }
  }

  /** The text of the four row logs, with their headers. */
  datatype Transcript = Transcript(success: string, canceled: string, failed: string, unconfirmed: string)

  /** The row logs as files; each file's first line is its column names. */
  function Files(l: Logs): (t: Transcript)
    ensures FirstLine(t.success) == "recipient,amount,signature"
    ensures FirstLine(t.canceled) == "recipient,amount"
    ensures FirstLine(t.failed) == "recipient,amount,error"
    ensures FirstLine(t.unconfirmed) == "recipient,amount,error"
  {
    HeadersAreFirstLines(l.success);
    HeadersAreFirstLines(l.canceled);
    HeadersAreFirstLines(l.failed);
    HeadersAreFirstLines(l.unconfirmed);
    Transcript(FileText(SuccessHeader, l.success), FileText(CanceledHeader, l.canceled),
               FileText(FailedHeader, l.failed), FileText(UnconfirmedHeader, l.unconfirmed))
  }

  /** The row logs as the distributor writes them: the unconfirmed header
      lacks its line feed, so the first unconfirmed row shares the header's
      line; the other three files are as in `Files`. */
  function FilesAsWritten(l: Logs): (t: Transcript)
    ensures t.(unconfirmed := Files(l).unconfirmed) == Files(l)
    ensures UnconfirmedHeaderAsWritten <= t.unconfirmed
    ensures Files(l).unconfirmed == UnconfirmedHeaderAsWritten + "\n" + t.unconfirmed[|UnconfirmedHeaderAsWritten|..]
    ensures FirstLine(t.unconfirmed) == UnconfirmedHeaderAsWritten + FirstLine(Concat(l.unconfirmed))
  {
    var t := Files(l).(unconfirmed := FileText(UnconfirmedHeaderAsWritten, l.unconfirmed));
    FirstLineAfter(UnconfirmedHeaderAsWritten, Concat(l.unconfirmed));
    assert t.unconfirmed[|UnconfirmedHeaderAsWritten|..] == Concat(l.unconfirmed);
    t
  }
}

=== FILE: signature.dfy ===
/** Reading the transaction signature the wallet prints on success: the
    last non-empty line of standard output should read `Signature: <id>`. */
module Signature {
  import opened Results
  import opened Text

  /** The text that introduces the signature. */
  const SignaturePrefix := "Signature: "

  /** What is logged when the last line carries no signature. */
  const Unparsed := "Error parsing signature - check the detailed logs."

  /** Index of the last line that is not empty, if any. */
  function LastNonEmpty(lines: seq<string>): (r: Option<nat>)
    ensures r.None? <==> forall i :: 0 <= i < |lines| ==> lines[i] == ""
    ensures r.Some? ==> r.value < |lines| && lines[r.value] != ""
    ensures r.Some? ==> forall j :: r.value < j < |lines| ==> lines[j] == ""
  {
    if |lines| == 0 then None
    else if lines[|lines| - 1] != "" then Some(|lines| - 1)
    else LastNonEmpty(lines[..|lines| - 1])
  }

  /** `re.match(r"Signature: ([a-zA-Z0-9]+)", line)`: the prefix at the very
      start of the line, then the longest run of at least one letter or digit. */
  function MatchSignature(line: string): (r: Option<string>)
    ensures r.Some? <==> |line| > |SignaturePrefix| && line[..|SignaturePrefix|] == SignaturePrefix
                          && IsAlnum(line[|SignaturePrefix|])
    ensures r.Some? ==> var n := |SignaturePrefix| + |r.value|;
      && r.value != ""
      && n <= |line| && line[..n] == SignaturePrefix + r.value
      && (forall i :: 0 <= i < |r.value| ==> IsAlnum(r.value[i]))
      && (n == |line| || !IsAlnum(line[n]))
  {
    var p := |SignaturePrefix|;
    if |line| > p && line[..p] == SignaturePrefix && IsAlnum(line[p]) then
      var id := AlnumPrefix(line[p..]);
      assert line[..p + |id|] == line[..p] + line[p..][..|id|];
      Some(id)
    else
      None
  }

  /** `parse_sig`: the signature on the last non-empty line of the output,
      or the fixed placeholder when that line carries none. `None` is the
      case the source does not survive: an output with no non-empty line
      walks the index off the front of the line list and raises. */
  function ParseSig(out: string): (r: Option<string>)
    ensures r.None? <==> forall k :: 0 <= k < |out| ==> out[k] == '\n'
    ensures r.Some? ==> r.value == Unparsed || (r.value != "" && forall i :: 0 <= i < |r.value| ==> IsAlnum(r.value[i]))
    ensures r.Some? ==> var lines := Split(out, '\n');
      && LastNonEmpty(lines).Some?
      && var m := MatchSignature(lines[LastNonEmpty(lines).value]);
      && (r.value == Unparsed <==> m.None?)
      && (m.Some? ==> r.value == m.value)
  {
    var lines := Split(out, '\n');
    SplitAllEmpty(out, '\n');
    match LastNonEmpty(lines)
    case None => None
    case Some(i) =>
      UnparsedIsNoSignature();
      Some(MatchSignature(lines[i]).GetOr(Unparsed))
  }

  /** The placeholder cannot be mistaken for a signature: it holds a space. */
  lemma UnparsedIsNoSignature()
    ensures !forall i :: 0 <= i < |Unparsed| ==> IsAlnum(Unparsed[i])
  {
    assert Unparsed[5] == "Error parsing signature - check the detailed logs."[5];
    assert ' ' in Unparsed;
  }

  /** A line without line feeds, ended by one, splits into the line and
      an empty last piece. */
  lemma LineEnd(line: string)
    requires '\n' !in line
    ensures Split(line + "\n", '\n') == [line, ""]
  {
    assert line + "\n" == line + ['\n'] + "";
    SplitCons(line, '\n', "");
    assert Split("", '\n') == [""];
  }

  /** A line without line feeds, ended by one, closes the line list with
      that line and an empty last piece. */
  lemma LastLines(earlier: string, line: string)
    requires earlier == "" || earlier[|earlier| - 1] == '\n'
    requires '\n' !in line
    ensures var ls := Split(earlier + line + "\n", '\n');
      |ls| >= 2 && ls[|ls| - 2] == line && ls[|ls| - 1] == ""
  {
    LineEnd(line);
    if earlier == "" {
      assert earlier + line + "\n" == line + "\n";
    } else {
      var e := earlier[..|earlier| - 1];
      calc {
        Split(earlier + line + "\n", '\n');
        { assert earlier + line + "\n" == e + ['\n'] + (line + "\n"); }
        Split(e + ['\n'] + (line + "\n"), '\n');
        { SplitConcat(e, '\n', line + "\n"); }
        Split(e, '\n') + [line, ""];
      }
    }
  }

  /** When the last line is empty and the one before is not, the one
      before is the last non-empty line. */
  lemma LastNonEmptyBeforeEmpty(ls: seq<string>)
    requires |ls| >= 2 && ls[|ls| - 1] == "" && ls[|ls| - 2] != ""
    ensures LastNonEmpty(ls) == Some(|ls| - 2)
  {
    assert ls[..|ls| - 1][|ls| - 2] == ls[|ls| - 2];
  }

  /** A well-formed signature line yields its identifier. */
  lemma MatchWellFormed(id: string)
    requires id != "" && forall i :: 0 <= i < |id| ==> IsAlnum(id[i])
    ensures MatchSignature(SignaturePrefix + id) == Some(id)
  {
    var line := SignaturePrefix + id;
    assert line[..|SignaturePrefix|] == SignaturePrefix;
    assert line[|SignaturePrefix|..] == id;
    AlnumPrefixWhole(id);
  }

  /** `parse_sig` reads the line that `LastNonEmpty` finds. */
  lemma ParseSigAt(out: string, i: nat)
    requires LastNonEmpty(Split(out, '\n')) == Some(i)
    ensures ParseSig(out) == Some(MatchSignature(Split(out, '\n')[i]).GetOr(Unparsed))
  {
  }

  /** A signature line holds no line feed. */
  lemma SignatureLineIsOneLine(id: string)
    requires forall i :: 0 <= i < |id| ==> IsAlnum(id[i])
    ensures '\n' !in SignaturePrefix + id
  {
    var line := SignaturePrefix + id;
    forall i | 0 <= i < |line|
      ensures line[i] != '\n'
    {
      if i >= |SignaturePrefix| {
        assert line[i] == id[i - |SignaturePrefix|];
      }
    }
  }

  /** The wallet's confirmation, a `Signature: <id>` line at the end of the
      output (after any earlier complete lines), yields exactly `<id>`. */
  lemma ParseSigOfConfirmation(earlier: string, id: string)
    requires earlier == "" || earlier[|earlier| - 1] == '\n'
    requires id != "" && forall i :: 0 <= i < |id| ==> IsAlnum(id[i])
    ensures ParseSig(earlier + SignaturePrefix + id + "\n") == Some(id)
  {
    var line := SignaturePrefix + id;
    SignatureLineIsOneLine(id);
    var out := earlier + SignaturePrefix + id + "\n";
    assert out == earlier + line + "\n";
    LastLines(earlier, line);
    var lines := Split(out, '\n');
    LastNonEmptyBeforeEmpty(lines);
    ParseSigAt(out, |lines| - 2);
    MatchWellFormed(id);
  }

  /** Only the last non-empty line counts: a last line that is not a
      signature line gives the placeholder, whatever the earlier lines
      hold, even a signature line. */
  lemma ParseSigOfOtherLastLine(earlier: string, line: string)
    requires earlier == "" || earlier[|earlier| - 1] == '\n'
    requires line != "" && '\n' !in line && MatchSignature(line).None?
    ensures ParseSig(earlier + line + "\n") == Some(Unparsed)
  {
    var out := earlier + line + "\n";
    LastLines(earlier, line);
    var lines := Split(out, '\n');
    LastNonEmptyBeforeEmpty(lines);
    ParseSigAt(out, |lines| - 2);
  }

  /** A signature followed by a warning line is not read: the output
      `Signature: abc`, `Warning` gives the placeholder. */
  lemma SignatureThenWarning()
    ensures ParseSig("Signature: abc\nWarning\n") == Some(Unparsed)
  {
    assert "Signature: abc\nWarning\n" == "Signature: abc\n" + "Warning" + "\n";
    assert MatchSignature("Warning").None?;
    ParseSigOfOtherLastLine("Signature: abc\n", "Warning");
  }

  lemma {:induction false} AlnumPrefixWhole(s: string)
    requires forall i :: 0 <= i < |s| ==> IsAlnum(s[i])
    ensures AlnumPrefix(s) == s
  {
    if |s| > 0 {
      AlnumPrefixWhole(s[1..]);
    }
  }
}

=== FILE: text.dfy ===
/** String helpers with Python's semantics: `str.strip`, `str.split` on one
    separator, `str.join`, the `in` substring test and the ASCII character
    class of the signature regular expression. */
module Text {
  import opened Seqs

  /** Python's `str.isspace`, the characters `str.strip()` removes: tab,
      line feed, vertical tab, form feed, carriage return, the separators
      0x1C-0x1F, the space, and the Unicode white space U+0085, U+00A0,
      U+1680, U+2000-U+200A, U+2028, U+2029, U+202F, U+205F and U+3000. */
  predicate IsSpace(c: char) {
    || c == ' ' || ('\t' <= c <= '\r') || ('\U{1C}' <= c <= '\U{1F}')
    || c == '\U{85}' || c == '\U{A0}' || c == '\U{1680}' || ('\U{2000}' <= c <= '\U{200A}')
    || c == '\U{2028}' || c == '\U{2029}' || c == '\U{202F}' || c == '\U{205F}' || c == '\U{3000}'
  }

  /** The regular-expression class `[a-zA-Z0-9]`. */
  predicate IsAlnum(c: char) {
    ('a' <= c <= 'z') || ('A' <= c <= 'Z') || ('0' <= c <= '9')
  }

  /** `s` without its leading whitespace. */
  function TrimStart(s: string): (r: string)
    ensures |r| <= |s|
    ensures r == [] || !IsSpace(r[0])
  {
    if |s| > 0 && IsSpace(s[0]) then TrimStart(s[1..]) else s
  }

  /** `s` without its trailing whitespace. */
  function TrimEnd(s: string): (r: string)
    ensures |r| <= |s|
    ensures r == [] || !IsSpace(r[|r| - 1])
  {
    if |s| > 0 && IsSpace(s[|s| - 1]) then TrimEnd(s[..|s| - 1]) else s
  }

  /** Trimming the end keeps a prefix of the text. */
  lemma {:induction false} TrimEndPrefix(s: string)
    ensures TrimEnd(s) == s[..|TrimEnd(s)|]
  {
    if |s| > 0 && IsSpace(s[|s| - 1]) {
      TrimEndPrefix(s[..|s| - 1]);
    }
  }

  /** Python's `str.strip()`. */
  function Strip(s: string): (r: string)
    ensures r == [] || (!IsSpace(r[0]) && !IsSpace(r[|r| - 1]))
    ensures |r| <= |s|
  {
    var t := TrimStart(s);
    TrimEndPrefix(t);
    TrimEnd(t)
  }

  /** A string with no surrounding whitespace is its own strip. */
  lemma StripUnchanged(s: string)
    requires s == [] || (!IsSpace(s[0]) && !IsSpace(s[|s| - 1]))
    ensures Strip(s) == s
  {
  }

  /** Stripping twice is stripping once. */
  lemma StripIdempotent(s: string)
    ensures Strip(Strip(s)) == Strip(s)
  {
    StripUnchanged(Strip(s));
  }

  lemma {:induction false} TrimStartNewline(s: string)
    ensures TrimStart(s + "\n") == TrimStart(s) + "\n" || (TrimStart(s + "\n") == "" && TrimStart(s) == "")
  {
    if |s| > 0 {
      assert (s + "\n")[1..] == s[1..] + "\n";
      TrimStartNewline(s[1..]);
    }
  }

  /** A trailing line feed, as `for line in f` leaves on each line, does not
      change the strip. */
  lemma StripTrailingNewline(s: string)
    ensures Strip(s + "\n") == Strip(s)
  {
    TrimStartNewline(s);
    var t := TrimStart(s);
    if TrimStart(s + "\n") == t + "\n" {
      assert (t + "\n")[..|t + "\n"| - 1] == t;
    }
  }

  /** Number of occurrences of `c` in `s`. */
  function Count(s: string, c: char): nat {
    multiset(s)[c]
  }

  /** Python's `sep.join(parts)` for a one-character separator. */
  function Join(parts: seq<string>, sep: char): string {
    if |parts| == 0 then ""
    else if |parts| == 1 then parts[0]
    else parts[0] + [sep] + Join(parts[1..], sep)
  }

  /** Python's `s.split(sep)` for a one-character separator: the pieces
      between separators, empty pieces included. */
  function Split(s: string, sep: char): (parts: seq<string>)
    ensures |parts| >= 1
    ensures forall i :: 0 <= i < |parts| ==> sep !in parts[i]
    decreases |s|
  {
    if sep in s then
      var i := IndexOf(s, sep);
      [s[..i]] + Split(s[i + 1..], sep)
    else
      [s]
  }

  /** Joining one more piece in front. */
  lemma JoinCons(p: string, rest: seq<string>, sep: char)
    requires |rest| >= 1
    ensures Join([p] + rest, sep) == p + [sep] + Join(rest, sep)
  {
    assert ([p] + rest)[1..] == rest;
  }

  /** Joining the pieces back with the separator gives the original text,
      and there is one more piece than there are separators. */
  lemma {:induction false} JoinSplit(s: string, sep: char)
    ensures Join(Split(s, sep), sep) == s
    ensures |Split(s, sep)| == Count(s, sep) + 1
    decreases |s|
  {
    if sep in s {
      var i := IndexOf(s, sep);
      var h, t := s[..i], s[i + 1..];
      assert s == h + [sep] + t;
      JoinSplit(t, sep);
      SplitCons(h, sep, t);
      JoinCons(h, Split(t, sep), sep);
      assert multiset(s) == multiset(h) + multiset([sep]) + multiset(t);
    }
  }

  /** Splitting undoes joining when no piece contains the separator. */
  lemma {:induction false} SplitJoin(parts: seq<string>, sep: char)
    requires |parts| >= 1
    requires forall i :: 0 <= i < |parts| ==> sep !in parts[i]
    ensures Split(Join(parts, sep), sep) == parts
  {
    if |parts| > 1 {
      var rest := parts[1..];
      SplitJoin(rest, sep);
      assert parts == [parts[0]] + rest;
      JoinCons(parts[0], rest, sep);
      SplitCons(parts[0], sep, Join(rest, sep));
    }
  }

  /** Unfolding one step of `Split`: text before the first separator is
      the first piece. */
  lemma SplitCons(h: string, sep: char, rest: string)
    requires sep !in h
    ensures Split(h + [sep] + rest, sep) == [h] + Split(rest, sep)
  {
    var s := h + [sep] + rest;
    assert s[..|h|] == h;
    assert s[|h| + 1..] == rest;
    IndexOfUnique(s, sep, |h|);
  }

  /** Splitting text joined at a separator splits each side separately. */
  lemma {:induction false} SplitConcat(p: string, sep: char, q: string)
    ensures Split(p + [sep] + q, sep) == Split(p, sep) + Split(q, sep)
    decreases |p|
  {
    if sep in p {
      var i := IndexOf(p, sep);
      var h, t := p[..i], p[i + 1..];
      assert p == h + [sep] + t;
      SplitConcat(t, sep, q);
      SplitConcatStep(h, t, sep, q);
    } else {
      SplitCons(p, sep, q);
    }
  }

  /** The inductive step of `SplitConcat`: the first separator of `p` is
      also the first of the joined text. */
  lemma SplitConcatStep(h: string, t: string, sep: char, q: string)
    requires sep !in h
    requires Split(t + [sep] + q, sep) == Split(t, sep) + Split(q, sep)
    ensures Split(h + [sep] + t + [sep] + q, sep) == Split(h + [sep] + t, sep) + Split(q, sep)
  {
    calc {
      Split(h + [sep] + t + [sep] + q, sep);
      { assert h + [sep] + t + [sep] + q == h + [sep] + (t + [sep] + q); }
      Split(h + [sep] + (t + [sep] + q), sep);
      { SplitCons(h, sep, t + [sep] + q); }
      [h] + (Split(t, sep) + Split(q, sep));
      ([h] + Split(t, sep)) + Split(q, sep);
      { SplitCons(h, sep, t); }
      Split(h + [sep] + t, sep) + Split(q, sep);
    }
  }

  /** Every piece is empty exactly when the text is nothing but separators. */
  lemma {:induction false} SplitAllEmpty(s: string, sep: char)
    ensures (forall i :: 0 <= i < |Split(s, sep)| ==> Split(s, sep)[i] == "")
        <==> (forall k :: 0 <= k < |s| ==> s[k] == sep)
    decreases |s|
  {
    if sep in s {
      var i := IndexOf(s, sep);
      var rest := s[i + 1..];
      SplitAllEmpty(rest, sep);
      var parts := Split(s, sep);
      assert parts == [s[..i]] + Split(rest, sep);
      if forall k :: 0 <= k < |s| ==> s[k] == sep {
        assert i == 0;
        forall j | 0 <= j < |parts|
          ensures parts[j] == ""
        {
          if j > 0 {
            assert parts[j] == Split(rest, sep)[j - 1];
            assert forall k :: 0 <= k < |rest| ==> rest[k] == s[k + i + 1];
          }
        }
      }
      if forall j :: 0 <= j < |parts| ==> parts[j] == "" {
        assert parts[0] == "";
        assert forall j :: 0 <= j < |Split(rest, sep)| ==> Split(rest, sep)[j] == parts[j + 1];
        forall k | 0 <= k < |s|
          ensures s[k] == sep
        {
          if k > 0 {
            assert s[k] == rest[k - 1];
          }
        }
      }
    } else {
      assert Split(s, sep) == [s];
      if |s| > 0 {
        assert s[0] != sep;
        assert Split(s, sep)[0] != "";
      }
    }
  }

  /** The text before the first separator is the first piece. */
  lemma SplitFirst(a: string, sep: char, b: string)
    requires sep !in a
    ensures Split(a + [sep] + b, sep)[0] == a
  {
    var s := a + [sep] + b;
    assert s[..|a|] == a;
    IndexOfUnique(s, sep, |a|);
  }

  /** `sub` occurs in `s` starting at position `i`. */
  predicate OccursAt(s: string, sub: string, i: nat) {
    i + |sub| <= |s| && s[i..i + |sub|] == sub
  }

  /** Python's `sub in s`. */
  predicate Contains(s: string, sub: string) {
    exists i: nat :: i <= |s| && OccursAt(s, sub, i)
  }

  /** The pieces written one after another, as successive appends to a file. */
  function Concat(parts: seq<string>): string {
    if |parts| == 0 then "" else parts[0] + Concat(parts[1..])
  }

  /** Every `from` in `s` replaced by `to` (`re.sub(r"[,]", ' ', s)` for a comma). */
  function Replace(s: string, from: char, to: char): (r: string)
    ensures |r| == |s|
    ensures forall i :: 0 <= i < |s| ==> r[i] == if s[i] == from then to else s[i]
    ensures from != to ==> from !in r
  {
    if |s| == 0 then ""
    else [if s[0] == from then to else s[0]] + Replace(s[1..], from, to)
  }

  /** The longest prefix of `s` made of `[a-zA-Z0-9]` characters. */
  function AlnumPrefix(s: string): (r: string)
    ensures |r| <= |s| && r == s[..|r|]
    ensures forall i :: 0 <= i < |r| ==> IsAlnum(r[i])
    ensures |r| == |s| || !IsAlnum(s[|r|])
  {
    if |s| > 0 && IsAlnum(s[0]) then [s[0]] + AlnumPrefix(s[1..]) else ""
  }

  /** Decimal digits of `n`, as Python's `f"{n}"` prints a natural number. */
  function NatToString(n: nat): (r: string)
    ensures |r| >= 1
    ensures forall i :: 0 <= i < |r| ==> '0' <= r[i] <= '9'
  {
    var d := ['0' + (n % 10) as char];
    if n < 10 then d else NatToString(n / 10) + d
  }
}

=== FILE: transfer_command.dfy ===
/** The wallet invocation for one transfer: its argument vector, which is
    what runs, and its printed form, which is what the operator sees and
    the transcript records. */
module TransferCommand {
  import opened Results
  import opened Text

  /** Renders an amount with a number of fractional digits, as Python's
      `f"{x:.{d}f}"` does; left abstract because it is float formatting. */
  type Formatter = (real, nat) -> string

  /** One transfer: program, sub-command, mint, decimals, amount, recipient,
      endpoint and extra flags. */
  datatype TransferCmd = TransferCmd(
    cmd: string,
    instruction: string,
    mint: string,
    decimals: nat,
    amount: real,
    recipient: string,
    url: string,
    options: seq<string>)

  /** The constructor with the evident intent: a given flag list is kept,
      a missing one becomes empty. */
  function NewTransferCmd(cmd: string, instruction: string, mint: string, decimals: nat,
                          amount: real, recipient: string, url: string,
                          options: Option<seq<string>>): (c: TransferCmd)
    ensures options.Some? ==> c.options == options.value
    ensures options.None? ==> c.options == []
  {
    TransferCmd(cmd, instruction, mint, decimals, amount, recipient, url, options.GetOr([]))
  }

  /** The argument vector: program, sub-command, mint, the amount with
      `decimals` fractional digits, recipient, `--url` and the endpoint,
      then the flags. */
  function ToList(c: TransferCmd, fmt: Formatter): (argv: seq<string>)
    ensures |argv| == 7 + |c.options|
    ensures argv[..7] == [c.cmd, c.instruction, c.mint, fmt(c.amount, c.decimals), c.recipient, "--url", c.url]
    ensures argv[7..] == c.options
  {
    var base := [c.cmd, c.instruction, c.mint, fmt(c.amount, c.decimals), c.recipient, "--url", c.url];
    if |c.options| > 0 then base + c.options else base
  }

  /** The printed command line: the same words joined by spaces, without
      the endpoint, and with the flags (possibly none) as the last field. */
  function ToStr(c: TransferCmd, fmt: Formatter): string {
    Join([c.cmd, c.instruction, c.mint, fmt(c.amount, c.decimals), c.recipient, Join(c.options, ' ')], ' ')
  }

  /** Joining a list whose last element is itself a non-empty join is
      joining the flattened list. */
  lemma {:induction false} JoinFlatten(a: seq<string>, b: seq<string>, sep: char)
    requires |a| >= 1 && |b| >= 1
    ensures Join(a + [Join(b, sep)], sep) == Join(a + b, sep)
  {
    if |a| == 1 {
      JoinCons(a[0], [Join(b, sep)], sep);
      JoinCons(a[0], b, sep);
      assert a + [Join(b, sep)] == [a[0]] + [Join(b, sep)];
      assert a + b == [a[0]] + b;
    } else {
      JoinFlatten(a[1..], b, sep);
      assert (a + [Join(b, sep)])[1..] == a[1..] + [Join(b, sep)];
      assert (a + b)[1..] == a[1..] + b;
    }
  }

  /** The printed form is the argument vector without `--url <endpoint>`:
      when no word contains a space, splitting the printed line on spaces
      gives back the first five arguments and then the flags, or a single
      empty field (the trailing space) when there are none. */
  lemma ToStrIsArgvWithoutUrl(c: TransferCmd, fmt: Formatter)
    requires forall w :: w in [c.cmd, c.instruction, c.mint, fmt(c.amount, c.decimals), c.recipient] ==> ' ' !in w
    requires forall w :: w in c.options ==> ' ' !in w
    ensures Split(ToStr(c, fmt), ' ') == ToList(c, fmt)[..5] + (if |c.options| == 0 then [""] else c.options)
  {
    var head := [c.cmd, c.instruction, c.mint, fmt(c.amount, c.decimals), c.recipient];
    assert ToList(c, fmt)[..5] == head;
    assert [c.cmd, c.instruction, c.mint, fmt(c.amount, c.decimals), c.recipient, Join(c.options, ' ')]
      == head + [Join(c.options, ' ')];
    assert forall i :: 0 <= i < |head| ==> ' ' !in head[i] by {
      forall i | 0 <= i < |head|
        ensures ' ' !in head[i]
      {
        assert head[i] in [c.cmd, c.instruction, c.mint, fmt(c.amount, c.decimals), c.recipient];
      }
    }
    if |c.options| == 0 {
      var parts := head + [""];
      assert forall i :: 0 <= i < |parts| ==> ' ' !in parts[i];
      SplitJoin(parts, ' ');
    } else {
      var parts := head + c.options;
      JoinFlatten(head, c.options, ' ');
      forall i | 0 <= i < |parts|
        ensures ' ' !in parts[i]
      {
        if i >= |head| {
          assert parts[i] == c.options[i - |head|];
        }
      }
      SplitJoin(parts, ' ');
    }
  }

  /** As written, the constructor assigns the flag list only when none is
      given; given any list (even an empty one), the attribute is never set. */
  datatype TransferCmdAsWritten = TransferCmdAsWritten(cmd: TransferCmd, optionsSet: bool)

  /** Why rendering the as-written command fails: the flag attribute was never assigned. */
  datatype AttributeError = OptionsUnset

  /** The constructor as written: only a missing flag list is stored. */
  function NewTransferCmdAsWritten(cmd: string, instruction: string, mint: string, decimals: nat,
                                   amount: real, recipient: string, url: string,
                                   options: Option<seq<string>>): (c: TransferCmdAsWritten)
    ensures c.optionsSet <==> options.None?
  {
    TransferCmdAsWritten(TransferCmd(cmd, instruction, mint, decimals, amount, recipient, url, []), options.None?)
  }

  /** `to_list` as written: reading the unset flag attribute raises. */
  function ToListAsWritten(c: TransferCmdAsWritten, fmt: Formatter): (r: Result<seq<string>, AttributeError>)
    ensures r.Err? <==> !c.optionsSet
    ensures r.Ok? ==> r.value == ToList(c.cmd, fmt)
  {
    if c.optionsSet then Ok(ToList(c.cmd, fmt)) else Err(OptionsUnset)
  }

  /** The discrepancy: passing any flag list, e.g. `["--fund-recipient"]`,
      makes the as-written command fail to render instead of carrying it. */
  lemma OptionsDroppedAsWritten(fmt: Formatter)
    ensures ToListAsWritten(NewTransferCmdAsWritten("spl-token", "transfer", "M", 6, 1.0, "R", "U", Some(["--fund-recipient"])), fmt)
      == Err(OptionsUnset)
  {
  }

  /** Over every input the two constructors agree exactly when no flag
      list is passed; passing one, the as-written command cannot render. */
  lemma AsWrittenMatchesCorrected(cmd: string, instruction: string, mint: string, decimals: nat,
                                  amount: real, recipient: string, url: string,
                                  options: Option<seq<string>>, fmt: Formatter)
    ensures var w := ToListAsWritten(NewTransferCmdAsWritten(cmd, instruction, mint, decimals, amount, recipient, url, options), fmt);
      && (options.None? ==> w == Ok(ToList(NewTransferCmd(cmd, instruction, mint, decimals, amount, recipient, url, options), fmt)))
      && (options.Some? ==> w == Err(OptionsUnset))
  {
  }

  /** The corrected constructor carries the given flags to the end of the
      argument vector, after the endpoint. */
  lemma OptionsKept(cmd: string, instruction: string, mint: string, decimals: nat,
                    amount: real, recipient: string, url: string, options: seq<string>, fmt: Formatter)
    ensures var argv := ToList(NewTransferCmd(cmd, instruction, mint, decimals, amount, recipient, url, Some(options)), fmt);
      argv[5..7] == ["--url", url] && argv[7..] == options
  {
  }
}
